=== FILE: README.md ===
# configurate-toml in Dafny

This project models the adapter in configurate-toml that joins the toml4j parser and writer to Configurate's configuration nodes. The repository has three near-duplicate generations: `ninja.leaping` (Configurate 3), `me.lucko` (coercions only) and `org.spongepowered` (Configurate 4). The model covers the logic they contain:

- **Tree marshalling** (`loader.dfy`, module `TomlLoader`). `readObject` copies toml4j's untyped tree into a node. `writeNode` rebuilds an ordered map from a node. Both are imperative methods with loops. Each is proved equal to a fold function (`ReadEntries`, `WriteNodeSpec`), and the lemmas about those folds state what the loaders promise: quotes are stripped from keys, values are stored unchanged, list elements are appended in order, there is one output entry per child, list children are checked first, date/time leaves are normalised, and a conditional round trip holds. The module also covers the native-type set that each loader declares.
- **Date/time coercion** (`moretypes.dfy`, module `MoreTypes`). This covers `asDate`, `asInstant`, `strictAsDate`, `strictAsInstant` and the `Instant`/`Date` serializers of all three generations, plus the serializer collections of the two later ones. One `AsDate` takes the width of the `seconds * 1000` multiplication as a parameter: `int` for ninja.leaping and me.lucko, `long` for org.spongepowered.
- **Builders** (`builder.dfy`, module `LoaderBuilder`). The `Builder` class has five option fields with their defaults. Each setter returns the builder and changes only its own field. `Loader`'s constructor copies all five options, and `CreateWriter` records what `createWriter` forwards to toml4j.

Supporting modules:

- `values.dfy` (`Values`): the Java values toml4j hands over, `Date` and `Instant`, Java `int` wrap-around, `longValue()`, and ordered maps as association lists (`LinkedHashMap` and Configurate's insertion-ordered children map).
- `nodes.dfy` (`ConfigNodes`): a small value model of a configuration node. A node is empty, a leaf, a list or a map. A child that is never given a value is never attached.

JDK and locale services are not part of this model. These are `toString`, `DateFormat.getInstance().parse/format`, `Instant.parse`, `Instant.from` and `ISO_INSTANT`. They are passed in as the function fields of a `Jdk` record, and `None` stands for the exception each one throws. `TimeZone.getTimeZone`, which the loaders call on the offset's ID when they create the writer, is passed to `LoaderBuilder.Loader.CreateWriter` as a function parameter.

Where the code and its documentation disagree, the model follows the code:

- The doc comment of `asInstant` promises that a `Number` is read as epoch milliseconds (src/main/java/ninja/leaping/configurate/toml/MoreTypes.java:125-126). No generation has that branch, so a number is turned into text and parsed as an ISO instant (`MoreTypes.AsInstantParsesNumbers`).
- The builder setters accept any Java `int`, negative values included. Nothing in the code checks that an indent is at least 0.
- The native types are ten classes. They include `Float` and `Integer` as well as `Double` and `Long`.

## Model

| member | source | states |
|---|---|---|
| Values.Wrap32 | src/main/java/ninja/leaping/configurate/toml/MoreTypes.java:82 | the result of an `int` multiplication is the 32-bit two's-complement value congruent to the exact product modulo 2^32, and equal to it when the product fits in an `int` |
| Values.LongValue | src/main/java/ninja/leaping/configurate/toml/MoreTypes.java:91 | `longValue()` keeps an integer as it is; a double is truncated toward zero when that fits in a `long`, and saturates at `Long.MAX_VALUE` or `Long.MIN_VALUE` otherwise |
| ConfigNodes.AttachChild | src/main/java/ninja/leaping/configurate/toml/TOMLConfigurationLoader.java:222 | once the child obtained by `getNode(key)` is filled, the parent holds it under `key`, and every other child is unchanged |
| ConfigNodes.ChildIsAttachedOrVirtual | src/main/java/ninja/leaping/configurate/toml/TOMLConfigurationLoader.java:222 | `getNode(key)` gives the child attached under `key`, or a fresh empty node when there is none |
| ConfigNodes.AppendChildAppends | src/main/java/ninja/leaping/configurate/toml/TOMLConfigurationLoader.java:230 | a filled `getAppendedNode()` becomes the last list child, after the existing children, which are unchanged; one that stays empty is never attached |
| ConfigNodes.SetValue | src/main/java/ninja/leaping/configurate/toml/TOMLConfigurationLoader.java:238 | `setValue(v)` leaves the node empty exactly for null, and makes it a map exactly for a map and a list exactly for a list |
| ConfigNodes.GetSetValue | src/main/java/ninja/leaping/configurate/toml/TOMLConfigurationLoader.java:238 | for every value toml4j hands over (no null inside a table or an array), `getValue()` gives back exactly what `setValue(v)` stored, maps and lists included |
| MoreTypes.AsDate | src/main/java/org/spongepowered/configurate/toml/MoreTypes.java:28-54 | `asDate` of null is null; it never fails on a `Date`, an `Instant` or a number, and a number gives the `Date` at its `longValue()` milliseconds |
| MoreTypes.NinjaAsDate | src/main/java/ninja/leaping/configurate/toml/MoreTypes.java:70-100 | an `Instant` becomes the `Date` at `int`-wrapped `seconds * 1000` plus its millisecond of second, which is its epoch milliseconds whenever `seconds * 1000` fits in an `int`. This holds for an accessor whose `get(INSTANT_SECONDS)` returns its epoch seconds, which is the corrected `getLong` form; a JDK `Instant` makes `get` throw |
| MoreTypes.LuckoAsDate | src/main/java/me/lucko/configurate/toml/MoreTypes.java:68-98 | the me.lucko `asDate` gives exactly what the ninja.leaping one gives, for every input |
| MoreTypes.SpongeAsDate | src/main/java/org/spongepowered/configurate/toml/MoreTypes.java:33-42 | an `Instant` becomes the `Date` at its epoch milliseconds. This holds for an accessor whose `get(INSTANT_SECONDS)` returns its epoch seconds, which is the corrected `getLong` form; a JDK `Instant` makes `get` throw |
| MoreTypes.AsInstant | src/main/java/ninja/leaping/configurate/toml/MoreTypes.java:137-164 | `asInstant` of null is null; it never fails on an `Instant` or a `Date`, and a `Date` keeps its epoch milliseconds |
| MoreTypes.StrictAsDate | src/main/java/ninja/leaping/configurate/toml/MoreTypes.java:109-115 | `strictAsDate` gives a result exactly for a `Date`, and then that `Date` |
| MoreTypes.StrictAsInstant | src/main/java/ninja/leaping/configurate/toml/MoreTypes.java:173-179 | `strictAsInstant` gives a result exactly for an `Instant`, and then that `Instant` |
| MoreTypes.NullCoercesToNull | src/main/java/ninja/leaping/configurate/toml/MoreTypes.java:71-73 | `asDate(null)`, `asInstant(null)` and both strict variants are null in all three generations, whatever the multiplication width |
| MoreTypes.CoercionIdempotent | src/main/java/ninja/leaping/configurate/toml/MoreTypes.java:75-77 | a `Date` passed to `asDate`, and an `Instant` passed to `asInstant`, comes back unchanged, so both coercions are idempotent on their non-null results in all three generations |
| MoreTypes.NumberIsEpochMillis | src/main/java/ninja/leaping/configurate/toml/MoreTypes.java:90-92 | `asDate` of a number is the `Date` at `longValue()` epoch milliseconds, and an integer is taken as it is; the me.lucko and org.spongepowered generations behave the same |
| MoreTypes.AsDateNullCases | src/main/java/ninja/leaping/configurate/toml/MoreTypes.java:70-100 | `asDate` is null exactly when the input is null, or when the input is not a `Date`, a temporal with instant seconds or a number and the locale parser rejects its text; the org.spongepowered generation does the same |
| MoreTypes.AsInstantParsesNumbers | src/main/java/ninja/leaping/configurate/toml/MoreTypes.java:158-163 | `asInstant` of a number is the ISO parse of its text; there is no epoch-millisecond branch, whatever the doc comment says; the me.lucko and org.spongepowered generations behave the same |
| MoreTypes.AsInstantNullCases | src/main/java/ninja/leaping/configurate/toml/MoreTypes.java:137-164 | `asInstant` is null exactly for null, for a temporal that `Instant.from` rejects, or for another non-date value whose text does not parse; it never throws; the me.lucko and org.spongepowered generations behave the same |
| MoreTypes.AsInstantKeepsDateMillis | src/main/java/ninja/leaping/configurate/toml/MoreTypes.java:146-148 | `asInstant` of a `Date` is non-null and has the same epoch milliseconds as `getTime()`; the me.lucko and org.spongepowered generations behave the same |
| MoreTypes.SpongeTemporalMillis | src/main/java/org/spongepowered/configurate/toml/MoreTypes.java:33-42 | with `1000L` the temporal branch gives exactly `seconds * 1000 + milliOfSecond`, and for an `Instant` that is its epoch milliseconds. This holds for an accessor whose `get(INSTANT_SECONDS)` returns its epoch seconds, which is the corrected `getLong` form; a JDK `Instant` makes `get` throw |
| MoreTypes.IntMultiplyAgreesIffInRange | src/main/java/ninja/leaping/configurate/toml/MoreTypes.java:79-87 | with the `int` multiplication the product wraps before the milliseconds are added, and the result agrees with the `long` one exactly when `seconds * 1000` fits in an `int`; the me.lucko generation does the same |
| MoreTypes.IntMultiplyOverflowExample | src/main/java/ninja/leaping/configurate/toml/MoreTypes.java:82 | an accessor whose `get(INSTANT_SECONDS)` returns 296638320 (1979-05-27T07:32:00Z) gives 285576576 ms with the `int` multiplication and 296638320000 ms with `1000L`; the me.lucko generation does the same. The JDK's own temporal types throw in `get` for that field instead |
| MoreTypes.DateInstantDateRoundTrip | src/main/java/org/spongepowered/configurate/toml/MoreTypes.java:65-67 | a `Date` survives `asInstant` followed by the `long` `asDate`. This holds for an accessor whose `get(INSTANT_SECONDS)` returns its epoch seconds, which is the corrected `getLong` form; a JDK `Instant` makes `get` throw, and `asInstant` of a `Date` is always a JDK `Instant`, so in the code as written this round trip throws |
| MoreTypes.InstantDateInstantTruncates | src/main/java/org/spongepowered/configurate/toml/MoreTypes.java:33-42 | an `Instant` survives the `long` `asDate` followed by `asInstant`, truncated to whole milliseconds. This holds for an accessor whose `get(INSTANT_SECONDS)` returns its epoch seconds, which is the corrected `getLong` form; a JDK `Instant` makes `get` throw |
| MoreTypes.StrictIsTypeFilter | src/main/java/ninja/leaping/configurate/toml/MoreTypes.java:109-115 | `strictAsDate` returns the input exactly when it is a `Date` and `strictAsInstant` exactly when it is an `Instant`, and each gives null otherwise, in all three generations |
| MoreTypes.StrictAgreesWithLenient | src/main/java/ninja/leaping/configurate/toml/MoreTypes.java:173-179 | whatever a strict coercion accepts, the lenient one returns unchanged |
| MoreTypes.NinjaInstantDeserialize | src/main/java/ninja/leaping/configurate/toml/MoreTypes.java:184-186 | an empty node deserializes to null, and a leaf holding an `Instant` to that `Instant` |
| MoreTypes.NinjaInstantSerialize | src/main/java/ninja/leaping/configurate/toml/MoreTypes.java:189-191 | the node's value afterwards is the `Instant` itself |
| MoreTypes.NinjaDateDeserialize | src/main/java/ninja/leaping/configurate/toml/MoreTypes.java:197-199 | an empty node deserializes to null, and a leaf holding a `Date` to that `Date` |
| MoreTypes.NinjaDateSerialize | src/main/java/ninja/leaping/configurate/toml/MoreTypes.java:202-204 | the node's value afterwards is the `Date` itself |
| MoreTypes.LuckoInstantDeserialize | src/main/java/me/lucko/configurate/toml/MoreTypes.java:185-187 | text is parsed as an ISO instant, and an `Instant` is taken as it is |
| MoreTypes.LuckoInstantSerialize | src/main/java/me/lucko/configurate/toml/MoreTypes.java:190-192 | the result is text, which the ISO parser reads back as the instant whenever it inverts the ISO formatter on it |
| MoreTypes.LuckoDateDeserialize | src/main/java/me/lucko/configurate/toml/MoreTypes.java:201-203 | text is parsed by the locale's `DateFormat`, and a `Date` is taken as it is |
| MoreTypes.LuckoDateSerialize | src/main/java/me/lucko/configurate/toml/MoreTypes.java:206-208 | the result is text, which the locale parser reads back as the date exactly when it inverts the locale formatter on it |
| MoreTypes.SpongeInstantDeserialize | src/main/java/org/spongepowered/configurate/toml/MoreTypes.java:92-95 | an empty node gives `Instant.EPOCH`, a leaf holding an `Instant` gives it, and any value `asInstant` accepts gives what it makes of it |
| MoreTypes.SpongeInstantSerialize | src/main/java/org/spongepowered/configurate/toml/MoreTypes.java:98-100 | null leaves the node empty, and any other instant becomes the node's value |
| MoreTypes.SpongeDateDeserialize | src/main/java/org/spongepowered/configurate/toml/MoreTypes.java:106-109 | an empty node gives the epoch `Date`, a leaf holding a `Date` gives it, and any value `asDate` accepts gives what it makes of it |
| MoreTypes.SpongeDateSerialize | src/main/java/org/spongepowered/configurate/toml/MoreTypes.java:112-114 | null leaves the node empty, and any other date becomes the node's value |
| MoreTypes.NinjaSerializersRoundTrip | src/main/java/ninja/leaping/configurate/toml/MoreTypes.java:181-205 | `deserialize` is `asInstant`/`asDate` of the node's value; `serialize` stores the object unchanged, so deserializing what was serialized gives it back |
| MoreTypes.ExampleDobAsInstant | src/test/java/ninja/leaping/configurate/toml/TOMLConfigurationLoaderTest.java:44 | the example's date of birth, handed over as a `Date`, is read as the instant 1979-05-27T07:32:00Z; the org.spongepowered generation does the same |
| MoreTypes.LuckoInstantRoundTrip | src/main/java/me/lucko/configurate/toml/MoreTypes.java:179-193 | `serialize` yields ISO-instant text and `deserialize` is `asInstant`, so an instant comes back whenever the ISO parser inverts the formatter on it |
| MoreTypes.LuckoDateRoundTrip | src/main/java/me/lucko/configurate/toml/MoreTypes.java:195-209 | `serialize` yields locale-formatted text and `deserialize` is `asDate`, so a date comes back exactly when the locale parser inverts the formatter on it |
| MoreTypes.SpongeDeserializeDefaultsToEpoch | src/main/java/org/spongepowered/configurate/toml/MoreTypes.java:91-109 | neither `deserialize` yields null: a failed coercion gives `Instant.EPOCH` or the epoch `Date`, and otherwise it gives the coerced value |
| MoreTypes.SpongeSerializersRoundTrip | src/main/java/org/spongepowered/configurate/toml/MoreTypes.java:89-115 | a stored object deserializes to itself, and a null object clears the node, which then deserializes to the epoch |
| MoreTypes.SpongeTypeSerializers | src/main/java/org/spongepowered/configurate/toml/MoreTypes.java:21-26 | the collection's parent is the defaults, two serializers are registered on it, and `Date` and `Instant` resolve to this module's serializers |
| MoreTypes.LuckoSerializers | src/main/java/me/lucko/configurate/toml/MoreTypes.java:40-47 | the collection's parent is the defaults, two serializers are registered on it, and `Instant` and `Date` resolve to this module's serializers |
| MoreTypes.SerializerCollectionsResolve | src/main/java/me/lucko/configurate/toml/MoreTypes.java:40-47 | every type other than `Date` and `Instant` resolves as in the defaults, and the me.lucko collection, which registers the two in the other order, resolves every type as the org.spongepowered one does |
| TomlLoader.StripQuotes | src/main/java/ninja/leaping/configurate/toml/TOMLConfigurationLoader.java:222 | the stripped key has no `"`, and every other character occurs in it as often as in the key; a key without quotes is unchanged; the org.spongepowered generation does the same |
| TomlLoader.StripQuotesAppend | src/main/java/ninja/leaping/configurate/toml/TOMLConfigurationLoader.java:222 | stripping works character by character and keeps order, because it distributes over concatenation |
| TomlLoader.ReadObject | src/main/java/ninja/leaping/configurate/toml/TOMLConfigurationLoader.java:220-241 | the loop over the entries computes the fold `ReadEntries`; the org.spongepowered generation does the same |
| TomlLoader.ReadEntryValue | src/main/java/ninja/leaping/configurate/toml/TOMLConfigurationLoader.java:224-238 | one entry's value read into the child its key addresses: a map recurses, a list runs the list loop, anything else is stored; the result is `ReadValue` of the value and the old child |
| TomlLoader.ReadList | src/main/java/ninja/leaping/configurate/toml/TOMLConfigurationLoader.java:227-236 | the loop over a list value computes the fold `ReadItems`; the org.spongepowered generation does the same |
| TomlLoader.ReadStepAddressesStrippedKey | src/main/java/ninja/leaping/configurate/toml/TOMLConfigurationLoader.java:221-223 | each entry changes only the child under its stripped key, which becomes what the entry's value makes of it; the org.spongepowered generation does the same |
| TomlLoader.ReadValueStoresScalars | src/main/java/ninja/leaping/configurate/toml/TOMLConfigurationLoader.java:225-238 | a map value is read recursively into the child; any other non-list value is stored unchanged, and a null leaves the child empty; the org.spongepowered generation does the same |
| TomlLoader.ReadElementCases | src/main/java/ninja/leaping/configurate/toml/TOMLConfigurationLoader.java:229-235 | a map element is read recursively into a fresh list node; any other element, a null-free nested array included, is stored unchanged |
| TomlLoader.ReadItemsAppends | src/main/java/ninja/leaping/configurate/toml/TOMLConfigurationLoader.java:227-236 | when every element reads to something, a list appends exactly one list child per element, after the existing children, in element order, with duplicates kept; the org.spongepowered generation does the same |
| TomlLoader.FilledElements | src/main/java/ninja/leaping/configurate/toml/TOMLConfigurationLoader.java:227-236 | the list children an array yields are all filled, at most one per element, and exactly one per element precisely when no element reads to nothing |
| TomlLoader.ReadItemsKeepsFilled | src/main/java/ninja/leaping/configurate/toml/TOMLConfigurationLoader.java:227-236 | for every array, reading it appends one list child per element that reads to something, in element order, after the existing children; an element that reads to nothing, such as an empty inline table, adds no child, and an array of such elements leaves the node unchanged |
| TomlLoader.EmptyTableElementDropped | src/main/java/ninja/leaping/configurate/toml/TOMLConfigurationLoader.java:229-233 | an empty inline table inside an array is dropped: the appended node is never given a value, so it is never attached |
| TomlLoader.ReadKeepsNodesValid | src/main/java/ninja/leaping/configurate/toml/TOMLConfigurationLoader.java:220-241 | reading a tree toml4j can produce into a valid node keeps it valid: keys stay distinct, no empty child is attached, and no container sits in a leaf |
| TomlLoader.ReadFreshIsSetValue | src/main/java/ninja/leaping/configurate/toml/TOMLConfigurationLoader.java:220-241 | reading a round-trippable tree into an empty node gives the node that `setValue` of the whole map gives |
| TomlLoader.ExamplePorts | src/test/java/ninja/leaping/configurate/toml/TOMLConfigurationLoaderTest.java:45 | `ports = [8001, 8001, 8002]` becomes three list children in that order; the org.spongepowered generation does the same |
| TomlLoader.ExampleProducts | src/test/java/ninja/leaping/configurate/toml/TOMLConfigurationLoaderTest.java:50-56 | the `products` array of tables becomes two map children, Hammer then Nail, with their names and SKUs; the org.spongepowered generation does the same |
| TomlLoader.ExampleQuotedKey | src/main/java/ninja/leaping/configurate/toml/TOMLConfigurationLoader.java:222 | the quoted key `"a.b"` addresses the child `a.b`, and the key with its quotes addresses nothing |
| TomlLoader.NormaliseLeaf | src/main/java/ninja/leaping/configurate/toml/TOMLConfigurationLoader.java:265-268 | the ninja.leaping loader writes an `Instant` leaf as a `Date` and every other leaf as it is; the org.spongepowered loader writes every leaf as it is |
| TomlLoader.WriteNode | src/main/java/ninja/leaping/configurate/toml/TOMLConfigurationLoader.java:249-272 | the loop over the children computes the fold `WriteNodeSpec`, in both loaders, each with its own leaf rule |
| TomlLoader.WriteList | src/main/java/ninja/leaping/configurate/toml/TOMLConfigurationLoader.java:253-262 | the loop over list children computes the fold `WriteItems`; the org.spongepowered generation does the same |
| TomlLoader.NinjaLeafNormalisation | src/main/java/ninja/leaping/configurate/toml/TOMLConfigurationLoader.java:265-268 | an `Instant` leaf is written as `asDate(value)`, with the `int`-wrapped milliseconds (its epoch milliseconds when no wrap occurs); every other leaf value is copied unchanged. This holds for an accessor whose `get(INSTANT_SECONDS)` returns its epoch seconds, which is the corrected `getLong` form; a JDK `Instant` makes `get` throw |
| TomlLoader.SpongeLeavesUnchanged | src/main/java/org/spongepowered/configurate/toml/TOMLConfigurationLoader.java:165-170 | `Date` leaves go through `asDate` and `Instant` leaves through `asInstant`, so every leaf value is written unchanged |
| TomlLoader.WriteOneEntryPerChild | src/main/java/ninja/leaping/configurate/toml/TOMLConfigurationLoader.java:250-251 | the map has exactly one entry per child, in the children map's order, under the child's key; the org.spongepowered generation does the same |
| TomlLoader.WriteChildCases | src/main/java/ninja/leaping/configurate/toml/TOMLConfigurationLoader.java:253-268 | a child with list children becomes a list with one element per list child, in order: a nested map for a list child with map children, otherwise its raw value. A map child becomes a nested map, and a leaf becomes its normalised value; the org.spongepowered generation does the same |
| TomlLoader.RoundTrip | src/main/java/ninja/leaping/configurate/toml/TOMLConfigurationLoader.java:220-272 | `writeNode(readObject(m)) == m` for toml4j's well-formed trees (distinct keys, no null at any depth, nested arrays included) with quote-free keys, no empty array or table, and for the ninja.leaping loader no `Instant` directly under a table key; the org.spongepowered loader round-trips instants too |
| TomlLoader.EmptyArrayOrTableVanishes | src/main/java/ninja/leaping/configurate/toml/TOMLConfigurationLoader.java:225-236 | an empty array or table is never attached, so it is not written back |
| TomlLoader.QuotedKeyComesBackStripped | src/main/java/ninja/leaping/configurate/toml/TOMLConfigurationLoader.java:222 | a quoted key is written back without its quotes |
| TomlLoader.InstantLeafWrittenBack | src/main/java/ninja/leaping/configurate/toml/TOMLConfigurationLoader.java:265-266 | an `Instant` read in is written back unchanged by the org.spongepowered loader. The ninja.leaping loader writes it back as the `Date` of its `int`-wrapped milliseconds, for an instant whose `get(INSTANT_SECONDS)` returns its seconds; a JDK `Instant` makes `get` throw there |
| TomlLoader.ExampleDobWrittenBack | src/main/java/ninja/leaping/configurate/toml/TOMLConfigurationLoader.java:265-266 | the instant 1979-05-27T07:32:00Z, as an accessor whose `get(INSTANT_SECONDS)` returns 296638320, is written back as the `Date` at 285576576 ms; a JDK `Instant` makes `get` throw there instead |
| TomlLoader.NinjaAcceptedTypes | src/main/java/ninja/leaping/configurate/toml/TOMLConfigurationLoader.java:277-278 | the accepted set holds ten distinct classes |
| TomlLoader.SpongeNativeTypes | src/main/java/org/spongepowered/configurate/toml/TOMLConfigurationLoader.java:178-189 | the hash set holds exactly ten classes, the same ones the ninja.leaping loader accepts |
| TomlLoader.NativeTypesCoverValues | src/main/java/ninja/leaping/configurate/toml/TOMLConfigurationLoader.java:277-278 | every value toml4j produces, anything but null and a foreign temporal, has a class, and that class is one the loaders accept |
| LoaderBuilder.Builder.constructor | src/main/java/ninja/leaping/configurate/toml/TOMLConfigurationLoader.java:63-67 | the defaults are key indent 0, table indent 0, array padding 0, zone UTC and no fractional seconds; the org.spongepowered generation does the same |
| LoaderBuilder.Builder.SetKeyIndent | src/main/java/ninja/leaping/configurate/toml/TOMLConfigurationLoader.java:76-79 | returns the builder itself; its getter then gives the new value, and no other option changes; the org.spongepowered generation does the same |
| LoaderBuilder.Builder.SetTableIndent | src/main/java/ninja/leaping/configurate/toml/TOMLConfigurationLoader.java:97-100 | returns the builder itself; its getter then gives the new value, and no other option changes; the org.spongepowered generation does the same |
| LoaderBuilder.Builder.SetZoneOffset | src/main/java/ninja/leaping/configurate/toml/TOMLConfigurationLoader.java:118-121 | returns the builder itself; its getter then gives the new value, and no other option changes; the org.spongepowered generation does the same |
| LoaderBuilder.Builder.SetArrayPadding | src/main/java/ninja/leaping/configurate/toml/TOMLConfigurationLoader.java:140-143 | returns the builder itself; its getter then gives the new value, and no other option changes; the org.spongepowered generation does the same |
| LoaderBuilder.Builder.SetUseFractionalSeconds | src/main/java/ninja/leaping/configurate/toml/TOMLConfigurationLoader.java:161-164 | returns the builder itself; its getter then gives the new value, and no other option changes; the org.spongepowered generation does the same |
| LoaderBuilder.Builder.NinjaBuild | src/main/java/ninja/leaping/configurate/toml/TOMLConfigurationLoader.java:177-179 | returns a new loader holding this builder's five options |
| LoaderBuilder.Builder.SpongeBuild | src/main/java/org/spongepowered/configurate/toml/TOMLConfigurationLoader.java:75-78 | installs the Date and Instant serializer collection in the default options, keeps the five options, and returns a new loader holding them |
| LoaderBuilder.Loader.constructor | src/main/java/ninja/leaping/configurate/toml/TOMLConfigurationLoader.java:188-194 | all five options are copied from the builder's getters; the org.spongepowered generation does the same |
| LoaderBuilder.Loader.CreateWriter | src/main/java/ninja/leaping/configurate/toml/TOMLConfigurationLoader.java:198-210 | tables are indented by the table indent and values by the key indent, and array delimiters are padded by the array padding. The zone is what `TimeZone.getTimeZone` makes of the offset's ID, and fractional seconds are shown only when the flag is set; the org.spongepowered generation does the same |
| LoaderBuilder.ZoneId | src/main/java/ninja/leaping/configurate/toml/TOMLConfigurationLoader.java:203 | `zoneOffset.getId()` is "Z" exactly for UTC, and otherwise a sign matching the offset's followed by "hh:mm" or "hh:mm:ss" |
| LoaderBuilder.ZoneIdRoundTrip | src/main/java/ninja/leaping/configurate/toml/TOMLConfigurationLoader.java:203 | the offset's total seconds can be read back from its ID |
| LoaderBuilder.ZoneIdInjective | src/main/java/ninja/leaping/configurate/toml/TOMLConfigurationLoader.java:203 | distinct offsets have distinct IDs, so `TimeZone.getTimeZone` is given all the offset holds |
| LoaderBuilder.DefaultLoader | src/main/java/ninja/leaping/configurate/toml/TOMLConfigurationLoader.java:63-67 | a loader built from an untouched builder writes with no indentation or padding, without fractional seconds, in the zone `TimeZone.getTimeZone("Z")` gives |
| LoaderBuilder.ConfiguredLoader | src/main/java/ninja/leaping/configurate/toml/TOMLConfigurationLoader.java:76-172 | the indents, padding and fractional-seconds flag set through chained setters are the ones the built loader writes with, and the zone is what `TimeZone.getTimeZone` makes of the chosen offset's ID |

## Left out

- Lexing, parsing and writing TOML text. toml4j does this (`new Toml().read(reader)`, `createWriter().write(map, writer)`), and its grammar is not part of this model. The model starts from the tree toml4j returns and ends at the map handed to it.
- `loadInternal` and `saveInternal`, readers and writers, and the `IOException` wrapping. These are I/O.
- The JDK and locale services: `toString`, the locale's `DateFormat`, `Instant.parse`, `Instant.from` and `ISO_INSTANT`. They are fields of the `Jdk` parameter with no properties assumed. The one property that is needed (the ISO parser inverts the ISO formatter) is a precondition of `MoreTypes.LuckoInstantRoundTrip`.
- MoreTypes.AsDate, MoreTypes.NinjaAsDate, MoreTypes.SpongeAsDate, MoreTypes.SpongeTemporalMillis, MoreTypes.DateInstantDateRoundTrip, MoreTypes.InstantDateInstantTruncates, TomlLoader.NinjaLeafNormalisation: `get(INSTANT_SECONDS)` is taken to return the accessor's epoch seconds, with no bound. On the JDK's own temporal types `get` of that field throws, because its range exceeds `int`. Only the `* 1000` multiplication is narrowed to `int`. What these members state about an `Instant` therefore holds for the corrected `getLong` form, and in the code as written a JDK `Instant` throws. This applies to `DateInstantDateRoundTrip` as well, whose `asInstant` always yields a JDK `Instant`.
- MoreTypes.SpongeAsDate: the `long` arithmetic of `seconds * 1000L + milliOfSecond` is unbounded here, so a `long` overflow is not modelled. `Date` milliseconds are unbounded as well.
- LoaderBuilder.Loader.CreateWriter: `TimeZone.getTimeZone` is a parameter with no properties assumed, so the model does not say which zone the writer gets for a non-UTC offset. The JDK documents custom IDs only in the form "GMT+hh:mm" and falls back to GMT for an ID it does not recognise. An offset ID such as "+01:00" is in neither form, so the JDK's documented fallback would give GMT; the model leaves the zone open.
- Values.LongValue: doubles are finite reals, and NaN and the infinities are left out. `Float` and `Double` share one case, as do `Integer` and `Long`.
- The global serializer registration in the ninja.leaping static block and `registerSerializers()`. This is a side effect on Configurate's shared registry.
- The serializers' `Type`/`TypeToken` arguments are not modelled.
- MoreTypes.SpongeSerializersRoundTrip, MoreTypes.SpongeInstantSerialize, MoreTypes.SpongeDateSerialize: the org.spongepowered `serialize` calls the typed `node.set(type, obj)`. The model takes that call to store the object as the node's raw value. Configurate may instead dispatch the call through the serializer collection, which holds this very serializer for `type`, and then `serialize` would call itself again. Configurate's `set` is not part of this model, so the round trip and the two `serialize` contracts hold only under the raw-storage reading. The readObject code of the same generation uses `raw(...)` where it means raw storage.
- ConfigNodes.SetValue: a null inside a map or list value is kept as an empty child, where Configurate would leave it unattached. toml4j never hands such a value over, so the lemmas that read a value back through `setValue` require that it hold no null.
- ConfigNodes.GetSetValue: stated only for values with no null inside a table or an array, because of the `SetValue` simplification above.
- TomlLoader.ReadElementCases: a non-map element is promised to read back unchanged only when it holds no null, for the same reason.
- Configurate itself. The node library is replaced by the value model in `ConfigNodes`:
  - nodes are values, so `readObject` and `writeNode` return the node or map they build, and aliasing and update in place are not captured;
  - attaching a map child to a leaf or list parent, or appending to a non-list parent, replaces the parent's content;
  - children-map keys are strings, and `toString()` of a key is the key itself;
  - a comment handler is not modelled.
- TomlLoader.ReadList and TomlLoader.WriteList: the inner loop over a list value is its own method. It is the same loop that sits inline in `readObject` and `writeNode`.
- The builder's inherited options (source, sink, URL, default options other than the serializers) and the `builder()` factory, which only calls the constructor.

## Findings

| source | as written | input that shows it | evidently intended | confidence | as-written member | corrected member |
|---|---|---|---|---|---|---|
| src/main/java/ninja/leaping/configurate/toml/MoreTypes.java:82 | `temp.get(INSTANT_SECONDS) * 1000` multiplies two `int`s, so the product wraps modulo 2^32 before it is widened to `long` (the same at src/main/java/me/lucko/configurate/toml/MoreTypes.java:80) | an accessor whose `get(INSTANT_SECONDS)` returns 296638320 (1979-05-27T07:32:00Z) gives 285576576 ms (early on 1970-01-04) instead of 296638320000 ms, as does any such accessor more than 2147483 seconds from the epoch. The JDK's own temporal types throw in `get` for that field before the multiplication | `getLong(INSTANT_SECONDS) * 1000L`, giving `seconds * 1000 + milliOfSecond` for every accessor; the org.spongepowered generation has the `1000L` but still calls `get` | not executed | MoreTypes.IntMultiplyOverflowExample | MoreTypes.SpongeTemporalMillis |

The ninja.leaping and me.lucko members (`MoreTypes.NinjaAsDate`, `MoreTypes.LuckoAsDate`, and through them the ninja.leaping `writeNode`) model the code as written. `MoreTypes.IntMultiplyAgreesIffInRange` shows that they agree with the corrected `long` form exactly when the product fits in an `int`. The org.spongepowered coercion `MoreTypes.SpongeAsDate` is the corrected definition, and the org.spongepowered loader and serializers use it. Its seconds are unbounded, so it computes what `getLong` followed by `* 1000L` computes.

=== FILE: builder.dfy ===
/**
 * The loader builders of both generations: five writer options with their defaults,
 * setters that return the builder for chaining, getters, and the loader that copies
 * the options when it is built. The two generations' builders hold the same options;
 * the org.spongepowered one also installs its serializer collection on `build()`.
 */
module LoaderBuilder {
  import opened Values
  import opened MoreTypes

  /** A Java `int`. */
  newtype Int32 = x: int | -0x8000_0000 <= x < 0x8000_0000

  /** The range `ZoneOffset` allows: at most eighteen hours either way. */
  newtype OffsetSeconds = x: int | -64800 <= x <= 64800

  /** `java.time.ZoneOffset`, by its total offset in seconds. */
  datatype ZoneOffset = ZoneOffset(totalSeconds: OffsetSeconds)

  /** `ZoneOffset.UTC`. */
  const Utc: ZoneOffset := ZoneOffset(0)

  function DigitChar(d: int): char
    requires 0 <= d < 10
  {
    "0123456789"[d]
  }

  function DigitValue(c: char): int {
    if '0' <= c <= '9' then c as int - '0' as int else -1
  }

  /** `n` in two decimal digits, with a leading zero below ten. */
  function TwoDigits(n: int): (r: string)
    requires 0 <= n < 100
    ensures |r| == 2 && DigitValue(r[0]) * 10 + DigitValue(r[1]) == n
  {
    [DigitChar(n / 10), DigitChar(n % 10)]
  }

  /** The ID of a non-zero offset: its sign, then "hh:mm", then ":ss" when there are seconds. */
  function OffsetId(negative: bool, hours: int, minutes: int, seconds: int): (r: string)
    requires 0 <= hours < 100 && 0 <= minutes < 100 && 0 <= seconds < 100
    ensures |r| == 6 || |r| == 9
  {
    [if negative then '-' else '+'] + TwoDigits(hours) + ":" + TwoDigits(minutes)
      + (if seconds == 0 then "" else ":" + TwoDigits(seconds))
  }

  /**
   * `ZoneOffset.getId()`: "Z" for UTC, otherwise the sign and "hh:mm", followed by ":ss"
   * when the offset has a seconds part.
   */
  function ZoneId(z: ZoneOffset): (r: string)
    ensures r == "Z" <==> z.totalSeconds == 0
    ensures r != "Z" ==> (|r| == 6 || |r| == 9) && r[0] == (if z.totalSeconds > 0 then '+' else '-')
  {
    var t := z.totalSeconds as int;
    if t == 0 then "Z"
    else
      var a := if t < 0 then -t else t;
      OffsetId(t < 0, a / 3600, (a / 60) % 60, a % 60)
  }

  /** Reads an ID of the form `ZoneId` writes back into a total offset in seconds. */
  function ParseOffsetId(id: string): Option<int> {
    if id == "Z" then Some(0)
    else if (|id| == 6 || |id| == 9) && (id[0] == '+' || id[0] == '-') && id[3] == ':' && (|id| == 6 || id[6] == ':') then
      var hours := DigitValue(id[1]) * 10 + DigitValue(id[2]);
      var minutes := DigitValue(id[4]) * 10 + DigitValue(id[5]);
      var seconds := if |id| == 9 then DigitValue(id[7]) * 10 + DigitValue(id[8]) else 0;
      var a := hours * 3600 + minutes * 60 + seconds;
      Some(if id[0] == '-' then -a else a)
    else None
  }

  lemma ParseOffsetIdOf(negative: bool, hours: int, minutes: int, seconds: int)
    requires 0 <= hours < 100 && 0 <= minutes < 100 && 0 <= seconds < 100
    ensures var a := hours * 3600 + minutes * 60 + seconds;
      ParseOffsetId(OffsetId(negative, hours, minutes, seconds)) == Some(if negative then -a else a)
  {
    var id := OffsetId(negative, hours, minutes, seconds);
    var h := TwoDigits(hours);
    var m := TwoDigits(minutes);
    assert id[0] == (if negative then '-' else '+');
    assert id[1] == h[0] && id[2] == h[1] && id[3] == ':' && id[4] == m[0] && id[5] == m[1];
    if seconds != 0 {
      var s := TwoDigits(seconds);
      assert |id| == 9 && id[6] == ':' && id[7] == s[0] && id[8] == s[1];
    } else {
      assert |id| == 6;
    }
  }

  lemma SplitSeconds(a: int)
    requires 0 <= a
    ensures (a / 3600) * 3600 + ((a / 60) % 60) * 60 + a % 60 == a
  {
    var m := a / 60;
    assert m * 60 + a % 60 == a;
    assert (m / 60) * 60 + m % 60 == m;
    assert a / 3600 == m / 60;
  }

  lemma OffsetIdRoundTrip(negative: bool, a: int)
    requires 0 < a <= 64800
    ensures ParseOffsetId(OffsetId(negative, a / 3600, (a / 60) % 60, a % 60)) == Some(if negative then -a else a)
  {
    var h, m, sec := a / 3600, (a / 60) % 60, a % 60;
    assert 0 <= h <= 18 && 0 <= m < 60 && 0 <= sec < 60;
    assert h * 3600 + m * 60 + sec == a by { SplitSeconds(a); }
    ParseOffsetIdOf(negative, h, m, sec);
  }

  /** The offset can be read back from its ID, so distinct offsets have distinct IDs. */
  lemma ZoneIdRoundTrip(z: ZoneOffset)
    ensures ParseOffsetId(ZoneId(z)) == Some(z.totalSeconds as int)
  {
    var t := z.totalSeconds as int;
    if t != 0 {
      var a := if t < 0 then -t else t;
      assert ZoneId(z) == OffsetId(t < 0, a / 3600, (a / 60) % 60, a % 60);
      OffsetIdRoundTrip(t < 0, a);
    }
  }

  /** No two offsets share an ID: `getTimeZone` is handed everything the offset holds. */
  lemma ZoneIdInjective(y: ZoneOffset, z: ZoneOffset)
    ensures ZoneId(y) == ZoneId(z) ==> y == z
  {
    ZoneIdRoundTrip(y);
    ZoneIdRoundTrip(z);
  }

  /**
   * `java.util.TimeZone`, left uninterpreted: what `TimeZone.getTimeZone(id)` returns for a
   * given ID is the JDK's and is passed in.
   */
  type TimeZone(==)

  /** The options `createWriter` hands to toml4j's `TomlWriter.Builder`. */
  datatype WriterOptions = WriterOptions(
    indentTablesBy: Int32,
    indentValuesBy: Int32,
    padArrayDelimitersBy: Int32,
    timeZone: TimeZone,
    showFractionalSeconds: bool)

  class Builder {
    var keyIndent: Int32
    var tableIndent: Int32
    var arrayPadding: Int32
    var zoneOffset: ZoneOffset
    var fractionalSeconds: bool
    /** The serializer collection installed in the default options, once `build()` has set one. */
    var serializers: Option<Collection>

    /** `builder()`: every option at its default. */
    constructor ()
      ensures GetKeyIndent() == 0 && GetTableIndent() == 0 && GetArrayPadding() == 0
      ensures GetZoneOffset() == Utc && !GetUseFractionalSeconds()
      ensures serializers == None
    {
      keyIndent := 0;
      tableIndent := 0;
      arrayPadding := 0;
      zoneOffset := Utc;
      fractionalSeconds := false;
      serializers := None;
    }

    function GetKeyIndent(): Int32 reads this { keyIndent }
    function GetTableIndent(): Int32 reads this { tableIndent }
    function GetArrayPadding(): Int32 reads this { arrayPadding }
    function GetZoneOffset(): ZoneOffset reads this { zoneOffset }
    function GetUseFractionalSeconds(): bool reads this { fractionalSeconds }

    method SetKeyIndent(indent: Int32) returns (self: Builder)
      modifies this
      ensures self == this && GetKeyIndent() == indent
      ensures tableIndent == old(tableIndent) && arrayPadding == old(arrayPadding)
      ensures zoneOffset == old(zoneOffset) && fractionalSeconds == old(fractionalSeconds)
      ensures serializers == old(serializers)
    {
      keyIndent := indent;
      self := this;
    }

    method SetTableIndent(indent: Int32) returns (self: Builder)
      modifies this
      ensures self == this && GetTableIndent() == indent
      ensures keyIndent == old(keyIndent) && arrayPadding == old(arrayPadding)
      ensures zoneOffset == old(zoneOffset) && fractionalSeconds == old(fractionalSeconds)
      ensures serializers == old(serializers)
    {
      tableIndent := indent;
      self := this;
    }

    method SetZoneOffset(offset: ZoneOffset) returns (self: Builder)
      modifies this
      ensures self == this && GetZoneOffset() == offset
      ensures keyIndent == old(keyIndent) && tableIndent == old(tableIndent)
      ensures arrayPadding == old(arrayPadding) && fractionalSeconds == old(fractionalSeconds)
      ensures serializers == old(serializers)
    {
      zoneOffset := offset;
      self := this;
    }

    method SetArrayPadding(padding: Int32) returns (self: Builder)
      modifies this
      ensures self == this && GetArrayPadding() == padding
      ensures keyIndent == old(keyIndent) && tableIndent == old(tableIndent)
      ensures zoneOffset == old(zoneOffset) && fractionalSeconds == old(fractionalSeconds)
      ensures serializers == old(serializers)
    {
      arrayPadding := padding;
      self := this;
    }

    method SetUseFractionalSeconds(fractional: bool) returns (self: Builder)
      modifies this
      ensures self == this && GetUseFractionalSeconds() == fractional
      ensures keyIndent == old(keyIndent) && tableIndent == old(tableIndent)
      ensures arrayPadding == old(arrayPadding) && zoneOffset == old(zoneOffset)
      ensures serializers == old(serializers)
    {
      fractionalSeconds := fractional;
      self := this;
    }

    /** `build()` of the ninja.leaping generation: a loader with this builder's options. */
    method NinjaBuild() returns (loader: Loader)
      ensures fresh(loader) && loader.CopiesOptionsOf(this)
    {
      loader := new Loader(this);
    }

    /**
     * `build()` of the org.spongepowered generation: the default options get the Date and
     * Instant serializers on top of the given defaults, then the loader is made.
     */
    method SpongeBuild(defaults: seq<(JavaType, Serializer)>) returns (loader: Loader)
      modifies this
      ensures serializers == Some(SpongeTypeSerializers(defaults))
      ensures keyIndent == old(keyIndent) && tableIndent == old(tableIndent) && arrayPadding == old(arrayPadding)
      ensures zoneOffset == old(zoneOffset) && fractionalSeconds == old(fractionalSeconds)
      ensures fresh(loader) && loader.CopiesOptionsOf(this)
    {
      serializers := Some(SpongeTypeSerializers(defaults));
      loader := new Loader(this);
    }
  }

  class Loader {
    const keyIndent: Int32
    const tableIndent: Int32
    const arrayPadding: Int32
    const zoneOffset: ZoneOffset
    const fractionalSeconds: bool

    /** The loader's options are the builder's, each read through its getter. */
    predicate CopiesOptionsOf(b: Builder)
      reads b
    {
      keyIndent == b.GetKeyIndent() && tableIndent == b.GetTableIndent() &&
      arrayPadding == b.GetArrayPadding() && zoneOffset == b.GetZoneOffset() &&
      fractionalSeconds == b.GetUseFractionalSeconds()
    }

    /** The private constructor: all five options copied from the builder. */
    constructor (b: Builder)
      ensures CopiesOptionsOf(b)
    {
      keyIndent := b.GetKeyIndent();
      tableIndent := b.GetTableIndent();
      arrayPadding := b.GetArrayPadding();
      zoneOffset := b.GetZoneOffset();
      fractionalSeconds := b.GetUseFractionalSeconds();
    }

    /**
     * `createWriter()`: tables are indented by the table indent, values by the key indent,
     * array delimiters padded by the array padding, in the time zone that
     * `TimeZone.getTimeZone` makes of the offset's ID, with fractional seconds only when
     * asked for.
     */
    function CreateWriter(getTimeZone: string -> TimeZone): (w: WriterOptions)
      ensures w.indentTablesBy == tableIndent && w.indentValuesBy == keyIndent
      ensures w.padArrayDelimitersBy == arrayPadding && w.timeZone == getTimeZone(ZoneId(zoneOffset))
      ensures w.showFractionalSeconds <==> fractionalSeconds
    {
      WriterOptions(tableIndent, keyIndent, arrayPadding, getTimeZone(ZoneId(zoneOffset)), fractionalSeconds)
    }
  }

  /**
   * A builder left at its defaults yields a loader writing with no indentation or padding,
   * without fractional seconds, in the time zone of the ID "Z".
   */
  method DefaultLoader(getTimeZone: string -> TimeZone) returns (w: WriterOptions)
    ensures w == WriterOptions(0, 0, 0, getTimeZone("Z"), false)
  {
    var b := new Builder();
    var loader := b.NinjaBuild();
    w := loader.CreateWriter(getTimeZone);
  }

  /**
   * Options set through chained setters are the ones the built loader writes with; the
   * offset reaches the writer only as what `TimeZone.getTimeZone` makes of its ID.
   */
  method ConfiguredLoader(keyIndent: Int32, tableIndent: Int32, padding: Int32, zone: ZoneOffset, fractional: bool,
                          getTimeZone: string -> TimeZone)
    returns (w: WriterOptions)
    ensures w == WriterOptions(tableIndent, keyIndent, padding, getTimeZone(ZoneId(zone)), fractional)
  {
    var b := new Builder();
    b := b.SetKeyIndent(keyIndent);
    b := b.SetTableIndent(tableIndent);
    b := b.SetArrayPadding(padding);
    b := b.SetZoneOffset(zone);
    b := b.SetUseFractionalSeconds(fractional);
    var loader := b.NinjaBuild();
    w := loader.CreateWriter(getTimeZone);
  }
}

=== FILE: loader.dfy ===
/**
 * The tree marshalling of the two TOML loaders: `readObject` copies toml4j's untyped
 * tree into a configuration node, `writeNode` rebuilds an ordered map from a node.
 * Both generations read identically; they differ in how `writeNode` treats date/time
 * leaves. Nodes are values here, so each operation returns the node it has filled.
 */
module TomlLoader {
  import opened Values
  import opened ConfigNodes
  import opened MoreTypes

  // ---------------------------------------------------------------------------
  // Keys

  /** `key.replace("\"", "")`: every double quote removed, everything else kept in order. */
  function StripQuotes(s: string): (r: string)
    ensures '"' !in r
    ensures |r| <= |s|
    ensures '"' !in s ==> r == s
    ensures forall c | c != '"' :: multiset(r)[c] == multiset(s)[c]
  {
    if s == [] then []
    else
      var rest := StripQuotes(s[1..]);
      assert s == [s[0]] + s[1..];
      if s[0] == '"' then rest else [s[0]] + rest
  }

  /** Stripping works character by character, so it distributes over concatenation. */
  lemma {:induction false} StripQuotesAppend(a: string, b: string)
    ensures StripQuotes(a + b) == StripQuotes(a) + StripQuotes(b)
  {
    if a != [] {
      assert (a + b)[1..] == a[1..] + b;
      StripQuotesAppend(a[1..], b);
    } else {
      assert a + b == b;
    }
  }

  // ---------------------------------------------------------------------------
  // readObject, as the fold its loops compute

  /** The entries `from[i..]` read into `to`, one after the other. */
  function ReadEntries(from: seq<(string, Value)>, i: nat, to: Node): Node
    requires i <= |from|
    decreases MapV(from), 0, |from| - i
  {
    if i == |from| then to
    else
      var key := StripQuotes(from[i].0);
      var node := ReadValue(from[i].1, Child(to, key));
      ReadEntries(from, i + 1, Attach(to, key, node))
  }

  /** What one entry's value does to the child it addresses. */
  function ReadValue(v: Value, node: Node): Node
    decreases v, 1, 0
  {
    match v
    case MapV(m) => ReadEntries(m, 0, node)
    case ListV(items) => ReadItems(items, 0, node)
    case _ => SetValue(v)
  }

  /** The list elements `items[j..]` appended to `node`, one after the other. */
  function ReadItems(items: seq<Value>, j: nat, node: Node): Node
    requires j <= |items|
    decreases ListV(items), 0, |items| - j
  {
    if j == |items| then node
    else ReadItems(items, j + 1, AppendChild(node, ReadElement(items[j])))
  }

  /** The freshly appended list node once one element has been read into it. */
  function ReadElement(e: Value): Node
    decreases e, 1, 0
  {
    if e.MapV? then ReadEntries(e.entries, 0, Empty) else SetValue(e)
  }

  /** `readObject(from, to)`, both generations (`getNode`/`node`, `setValue`/`raw`). */
  method ReadObject(from: seq<(string, Value)>, to: Node) returns (r: Node)
    ensures r == ReadEntries(from, 0, to)
    decreases MapV(from), 0
  {
    r := to;
    var i := 0;
    while i < |from|
      invariant 0 <= i <= |from|
      invariant ReadEntries(from, i, r) == ReadEntries(from, 0, to)
    {
      var key := StripQuotes(from[i].0);
      var node := ReadEntryValue(from[i].1, Child(r, key));
      r := Attach(r, key, node);
      i := i + 1;
    }
  }

  /** The body of `readObject`'s loop for one value: recurse into a map, loop over a list, store the rest. */
  method ReadEntryValue(value: Value, child: Node) returns (node: Node)
    ensures node == ReadValue(value, child)
    decreases value, 1
  {
    if value.MapV? {
      node := ReadObject(value.entries, child);
    } else if value.ListV? {
      node := ReadList(value.items, child);
    } else {
      node := SetValue(value);
    }
  }

  /** The loop of `readObject` over a `List` value (`getAppendedNode`/`appendListNode` per element). */
  method ReadList(list: seq<Value>, to: Node) returns (node: Node)
    ensures node == ReadItems(list, 0, to)
    decreases ListV(list), 0
  {
    node := to;
    var j := 0;
    while j < |list|
      invariant 0 <= j <= |list|
      invariant ReadItems(list, j, node) == ReadItems(list, 0, to)
    {
      var element := list[j];
      var listNode := Empty;
      if element.MapV? {
        listNode := ReadObject(element.entries, listNode);
      } else {
        listNode := SetValue(element);
      }
      node := AppendChild(node, listNode);
      j := j + 1;
    }
  }

  // ---------------------------------------------------------------------------
  // What readObject does

  /**
   * One entry is read into the child addressed by its key with every `"` removed:
   * that child becomes what the entry's value makes of it, every other child stays.
   */
  lemma ReadStepAddressesStrippedKey(from: seq<(string, Value)>, i: nat, to: Node, k: string)
    requires i < |from|
    ensures var key := StripQuotes(from[i].0);
      var next := Attach(to, key, ReadValue(from[i].1, Child(to, key)));
      ReadEntries(from, i, to) == ReadEntries(from, i + 1, next) &&
      Child(next, k) == if k == key then ReadValue(from[i].1, Child(to, key)) else Child(to, k)
  {
    var key := StripQuotes(from[i].0);
    AttachChild(to, key, ReadValue(from[i].1, Child(to, key)), k);
  }

  /**
   * A `Map` value is read recursively into the child; any other non-`List` value is
   * stored on it as it is (a null leaves it empty, so it is not attached).
   */
  lemma ReadValueStoresScalars(v: Value, node: Node)
    ensures v.MapV? ==> ReadValue(v, node) == ReadEntries(v.entries, 0, node)
    ensures !v.MapV? && !v.ListV? ==> GetValue(ReadValue(v, node)) == v
    ensures !v.MapV? && !v.ListV? ==> (ReadValue(v, node).Empty? <==> v.Null?)
  {
    if !v.MapV? && !v.ListV? {
      GetSetValue(v);
    }
  }

  /**
   * A list element: a map is read into a fresh node, anything else is stored as it is
   * (for a nested array, when it holds no null, as toml4j's never do).
   */
  lemma ReadElementCases(e: Value)
    ensures e.MapV? ==> ReadElement(e) == ReadEntries(e.entries, 0, Empty)
    ensures !e.MapV? && WellFormed(e) ==> GetValue(ReadElement(e)) == e
    ensures !e.MapV? ==> (ReadElement(e).Empty? <==> e.Null?)
  {
    if !e.MapV? && WellFormed(e) {
      GetSetValue(e);
    }
  }

  /**
   * Reading a `List` appends one list child per element that reads to something, after the
   * children already there, in element order, duplicates kept.
   */
  lemma {:induction false} ReadItemsAppends(items: seq<Value>, j: nat, node: Node)
    requires j <= |items|
    requires forall k | j <= k < |items| :: !ReadElement(items[k]).Empty?
    ensures ReadItems(items, j, node) ==
      if j == |items| then node
      else ListNode(ListChildren(node) + seq(|items| - j, k requires 0 <= k < |items| - j => ReadElement(items[j + k])))
    decreases |items| - j
  {
    if j < |items| {
      var next := AppendChild(node, ReadElement(items[j]));
      ReadItemsAppends(items, j + 1, next);
      var tail := seq(|items| - j, k requires 0 <= k < |items| - j => ReadElement(items[j + k]));
      if j + 1 < |items| {
        var tail' := seq(|items| - (j + 1), k requires 0 <= k < |items| - (j + 1) => ReadElement(items[j + 1 + k]));
        assert tail == [ReadElement(items[j])] + tail';
        assert ListChildren(next) + tail' == ListChildren(node) + tail;
      } else {
        assert tail == [ReadElement(items[j])];
      }
    }
  }

  /**
   * The list children an array's elements from `j` on read to, in element order, with
   * the elements that read to nothing (an empty inline table, say) left out.
   */
  function FilledElements(items: seq<Value>, j: nat): (r: seq<Node>)
    requires j <= |items|
    ensures forall k | 0 <= k < |r| :: !r[k].Empty?
    ensures |r| <= |items| - j
    ensures |r| == |items| - j <==> forall k | j <= k < |items| :: !ReadElement(items[k]).Empty?
    decreases |items| - j
  {
    if j == |items| then []
    else (if ReadElement(items[j]).Empty? then [] else [ReadElement(items[j])]) + FilledElements(items, j + 1)
  }

  /**
   * Reading a `List` appends the filled elements after the children already there; an
   * element that reads to nothing is never attached, and a list with no filled element
   * leaves the node as it was.
   */
  lemma {:induction false} ReadItemsKeepsFilled(items: seq<Value>, j: nat, node: Node)
    requires j <= |items|
    ensures ReadItems(items, j, node) ==
      if FilledElements(items, j) == [] then node else ListNode(ListChildren(node) + FilledElements(items, j))
    decreases |items| - j
  {
    if j < |items| {
      var c := ReadElement(items[j]);
      var next := AppendChild(node, c);
      ReadItemsKeepsFilled(items, j + 1, next);
      if !c.Empty? {
        var rest := FilledElements(items, j + 1);
        assert FilledElements(items, j) == [c] + rest;
        assert ListChildren(next) + rest == ListChildren(node) + ([c] + rest);
      }
    }
  }

  /** An empty inline table inside an array is dropped: its appended node is never filled. */
  lemma EmptyTableElementDropped(items: seq<Value>, j: nat, node: Node)
    requires j < |items| && items[j] == MapV([])
    ensures ReadItems(items, j, node) == ReadItems(items, j + 1, node)
  {
    assert ReadElement(items[j]) == Empty;
  }

  /**
   * Reading a tree toml4j can produce into a valid node keeps it valid: keys stay
   * distinct, no empty child is attached, and containers never sit in a leaf.
   */
  lemma ReadKeepsNodesValid(from: seq<(string, Value)>, to: Node)
    requires WellFormed(MapV(from)) && Valid(to)
    ensures Valid(ReadEntries(from, 0, to))
  {
    ReadEntriesValid(from, 0, to);
  }

  lemma {:induction false} ReadEntriesValid(from: seq<(string, Value)>, i: nat, to: Node)
    requires i <= |from| && WellFormed(MapV(from)) && Valid(to)
    ensures Valid(ReadEntries(from, i, to))
    decreases MapV(from), 0, |from| - i
  {
    if i < |from| {
      var key := StripQuotes(from[i].0);
      ChildValid(to, key);
      ReadValueValid(from[i].1, Child(to, key));
      AttachValid(to, key, ReadValue(from[i].1, Child(to, key)));
      ReadEntriesValid(from, i + 1, Attach(to, key, ReadValue(from[i].1, Child(to, key))));
    }
  }

  lemma {:induction false} ReadValueValid(v: Value, node: Node)
    requires WellFormed(v) && Valid(node)
    ensures Valid(ReadValue(v, node))
    decreases v, 1, 0
  {
    match v
    case MapV(m) => ReadEntriesValid(m, 0, node);
    case ListV(items) => ReadItemsValid(items, 0, node);
    case _ => SetValueValid(v);
  }

  lemma {:induction false} ReadItemsValid(items: seq<Value>, j: nat, node: Node)
    requires j <= |items| && WellFormed(ListV(items)) && Valid(node)
    ensures Valid(ReadItems(items, j, node))
    decreases ListV(items), 0, |items| - j
  {
    if j < |items| {
      ReadElementValid(items[j]);
      AppendValid(node, ReadElement(items[j]));
      ReadItemsValid(items, j + 1, AppendChild(node, ReadElement(items[j])));
    }
  }

  lemma {:induction false} ReadElementValid(e: Value)
    requires WellFormed(e)
    ensures Valid(ReadElement(e))
    decreases e, 1, 0
  {
    if e.MapV? {
      ReadEntriesValid(e.entries, 0, Empty);
    } else {
      SetValueValid(e);
    }
  }

  // ---------------------------------------------------------------------------
  // The concrete trees of the loader's example configuration

  const Ports: seq<(string, Value)> := [("ports", ListV([Int(8001), Int(8001), Int(8002)]))]

  const Hammer: seq<(string, Value)> := [("name", Str("Hammer")), ("sku", Int(738594937))]
  const Nail: seq<(string, Value)> := [("name", Str("Nail")), ("sku", Int(284758393))]
  const Products: seq<(string, Value)> := [("products", ListV([MapV(Hammer), MapV(Nail)]))]

  /** `[8001, 8001, 8002]` becomes three list children in that order, the duplicate kept. */
  lemma ExamplePorts()
    ensures ListChildren(Child(ReadEntries(Ports, 0, Empty), "ports")) ==
      [Leaf(Int(8001)), Leaf(Int(8001)), Leaf(Int(8002))]
  {
    var items := [Int(8001), Int(8001), Int(8002)];
    ReadItemsAppends(items, 0, Empty);
    var c := ReadItems(items, 0, Empty);
    assert c == ListNode([ReadElement(items[0]), ReadElement(items[1]), ReadElement(items[2])]);
    ReadSingleEntry(Ports, Empty);
  }

  /** The array of tables becomes two map children, Hammer then Nail. */
  lemma ExampleProducts()
    ensures ListChildren(Child(ReadEntries(Products, 0, Empty), "products")) ==
      [MapNode([("name", Leaf(Str("Hammer"))), ("sku", Leaf(Int(738594937)))]),
       MapNode([("name", Leaf(Str("Nail"))), ("sku", Leaf(Int(284758393)))])]
  {
    var h := MapNode([("name", Leaf(Str("Hammer"))), ("sku", Leaf(Int(738594937)))]);
    var n := MapNode([("name", Leaf(Str("Nail"))), ("sku", Leaf(Int(284758393)))]);
    ReadTwoScalarTable("name", Str("Hammer"), "sku", Int(738594937));
    ReadTwoScalarTable("name", Str("Nail"), "sku", Int(284758393));
    ReadTwoElements(MapV(Hammer), MapV(Nail));
    assert '"' !in "products";
    ReadSingleList("products", [MapV(Hammer), MapV(Nail)], ListNode([h, n]));
  }

  /** Two elements that both read to something become two list children in order. */
  lemma ReadTwoElements(e0: Value, e1: Value)
    requires !ReadElement(e0).Empty? && !ReadElement(e1).Empty?
    ensures ReadItems([e0, e1], 0, Empty) == ListNode([ReadElement(e0), ReadElement(e1)])
  {
    var items := [e0, e1];
    var x := ReadElement(e0);
    var y := ReadElement(e1);
    assert items[0] == e0 && items[1] == e1;
    assert AppendChild(Empty, x) == ListNode([x]);
    assert AppendChild(ListNode([x]), y) == ListNode([x, y]);
    assert ReadItems(items, 0, Empty) == ReadItems(items, 1, ListNode([x]));
    assert ReadItems(items, 1, ListNode([x])) == ReadItems(items, 2, ListNode([x, y]));
  }

  /** A tree of one array read into an empty node: the array's children sit under the stripped key. */
  lemma ReadSingleList(key: string, items: seq<Value>, c: Node)
    requires ReadItems(items, 0, Empty) == c
    ensures Child(ReadEntries([(key, ListV(items))], 0, Empty), StripQuotes(key)) == c
  {
    ReadSingleEntry([(key, ListV(items))], Empty);
  }

  /** A table of two scalars, as an array element, becomes a map node of two leaves in order. */
  lemma ReadTwoScalarTable(a: string, x: Value, b: string, y: Value)
    requires a != b && '"' !in a && '"' !in b
    requires !x.MapV? && !x.ListV? && !x.Null? && !y.MapV? && !y.ListV? && !y.Null?
    ensures ReadElement(MapV([(a, x), (b, y)])) == MapNode([(a, Leaf(x)), (b, Leaf(y))])
  {
    var m := [(a, x), (b, y)];
    assert ReadableEntries(m);
    ReadFreshIsSetValue(m);
    assert SetValue(MapV(m)).entries == [(a, Leaf(x)), (b, Leaf(y))];
  }

  /** A one-entry tree read into a node: the stripped key's child is what the value makes of the old child. */
  lemma ReadSingleEntry(from: seq<(string, Value)>, to: Node)
    requires |from| == 1
    ensures var key := StripQuotes(from[0].0);
      Child(ReadEntries(from, 0, to), key) == ReadValue(from[0].1, Child(to, key))
  {
    var key := StripQuotes(from[0].0);
    ReadStepAddressesStrippedKey(from, 0, to, key);
  }

  /** A quoted key addresses the child without its quotes. */
  lemma ExampleQuotedKey()
    ensures Child(ReadEntries([("\"a.b\"", Int(1))], 0, Empty), "a.b") == Leaf(Int(1))
    ensures Child(ReadEntries([("\"a.b\"", Int(1))], 0, Empty), "\"a.b\"") == Empty
  {
    var from := [("\"a.b\"", Int(1))];
    assert StripQuotes("\"a.b\"") == "a.b";
    ReadStepAddressesStrippedKey(from, 0, Empty, "a.b");
    ReadStepAddressesStrippedKey(from, 0, Empty, "\"a.b\"");
  }

  // ---------------------------------------------------------------------------
  // Reading a tree that survives the trip

  /**
   * Trees whose reading loses nothing: keys without `"` and distinct, no null entry, no
   * empty table or array (an empty one is never attached), no null or empty table in an array.
   */
  predicate ReadableEntries(m: seq<(string, Value)>)
    decreases MapV(m), 0
  {
    DistinctKeys(m) && forall i | 0 <= i < |m| :: '"' !in m[i].0 && ReadableEntry(m[i].1)
  }

  predicate ReadableEntry(v: Value)
    decreases v, 1
  {
    match v
    case Null => false
    case MapV(m) => m != [] && ReadableEntries(m)
    case ListV(items) => items != [] && forall k | 0 <= k < |items| :: ReadableElement(items[k])
    case _ => true
  }

  predicate ReadableElement(e: Value)
    decreases e, 2
  {
    !e.Null? && (e.MapV? ==> e.entries != [] && ReadableEntries(e.entries))
  }

  /** On such a tree, reading into an empty node gives the node that `setValue` of the whole map gives. */
  lemma ReadFreshIsSetValue(m: seq<(string, Value)>)
    requires ReadableEntries(m) && m != []
    ensures ReadEntries(m, 0, Empty) == SetValue(MapV(m))
  {
    ReadEntriesFresh(m, 0);
  }

  function MapPrefix(m: seq<(string, Value)>, i: nat): Node
    requires i <= |m|
  {
    if i == 0 then Empty else MapNode(SetValue(MapV(m)).entries[..i])
  }

  function ListPrefix(items: seq<Value>, j: nat): Node
    requires j <= |items|
  {
    if j == 0 then Empty else ListNode(SetValue(ListV(items)).items[..j])
  }

  lemma {:induction false} ReadEntriesFresh(m: seq<(string, Value)>, i: nat)
    requires ReadableEntries(m) && m != [] && i <= |m|
    ensures ReadEntries(m, i, MapPrefix(m, i)) == SetValue(MapV(m))
    decreases MapV(m), 0, |m| - i
  {
    var t := SetValue(MapV(m)).entries;
    if i == |m| {
      assert t[..i] == t;
    } else {
      var key := m[i].0;
      assert StripQuotes(m[i].0) == key;
      var pre := MapPrefix(m, i);
      assert Children(pre) == t[..i];
      assert !HasKey(t[..i], key) by {
        forall a | 0 <= a < i ensures t[..i][a].0 != key {
          assert t[..i][a].0 == m[a].0;
        }
      }
      assert Child(pre, key) == Empty;
      ReadValueFresh(m[i].1);
      var c := SetValue(m[i].1);
      assert Attach(pre, key, c) == MapNode(t[..i] + [(key, c)]);
      assert t[..i] + [(key, c)] == t[..i + 1];
      assert Attach(pre, key, c) == MapPrefix(m, i + 1);
      ReadEntriesFresh(m, i + 1);
    }
  }

  lemma {:induction false} ReadValueFresh(v: Value)
    requires ReadableEntry(v)
    ensures ReadValue(v, Empty) == SetValue(v)
    decreases v, 1, 0
  {
    match v
    case MapV(m) => ReadEntriesFresh(m, 0);
    case ListV(items) => ReadItemsFresh(items, 0);
    case _ =>
  }

  lemma {:induction false} ReadItemsFresh(items: seq<Value>, j: nat)
    requires items != [] && j <= |items|
    requires forall k | 0 <= k < |items| :: ReadableElement(items[k])
    ensures ReadItems(items, j, ListPrefix(items, j)) == SetValue(ListV(items))
    decreases ListV(items), 0, |items| - j
  {
    var t := SetValue(ListV(items)).items;
    if j == |items| {
      assert t[..j] == t;
    } else {
      var pre := ListPrefix(items, j);
      assert ListChildren(pre) == t[..j];
      ReadElementFresh(items[j]);
      var c := SetValue(items[j]);
      assert t[..j] + [c] == t[..j + 1];
      assert AppendChild(pre, c) == ListPrefix(items, j + 1);
      ReadItemsFresh(items, j + 1);
    }
  }

  lemma {:induction false} ReadElementFresh(e: Value)
    requires ReadableElement(e)
    ensures ReadElement(e) == SetValue(e)
    decreases e, 1, 0
  {
    if e.MapV? {
      ReadEntriesFresh(e.entries, 0);
    }
  }

  // ---------------------------------------------------------------------------
  // writeNode, as the fold its loops compute

  /** The two loaders that carry a `writeNode`: they differ only in how a scalar leaf is written. */
  datatype Generation = Ninja | Sponge

  /**
   * A leaf's value as `writeNode` puts it into the map: the ninja.leaping loader turns an
   * `Instant` into `asDate(value)`; the org.spongepowered loader passes a `Date` through
   * `asDate` and an `Instant` through `asInstant`; everything else is copied.
   */
  function NormaliseLeaf(g: Generation, jdk: Jdk, v: Value): (r: Value)
    ensures g == Sponge ==> r == v
    ensures g == Ninja && !v.InstantV? ==> r == v
    ensures g == Ninja && v.InstantV? ==> r.DateV?
  {
    match g
    case Ninja =>
      if v.InstantV? then DateOrNull(NinjaAsDate(jdk, v)) else v
    case Sponge =>
      if v.DateV? then DateOrNull(SpongeAsDate(jdk, v))
      else if v.InstantV? then InstantOrNull(AsInstant(jdk, v))
      else v
  }

  function DateOrNull(d: Option<Date>): Value {
    if d.Some? then DateV(d.value) else Null
  }

  function InstantOrNull(i: Option<Instant>): Value {
    if i.Some? then InstantV(i.value) else Null
  }

  /** The children `es[i..]` put into the ordered map `acc`, one after the other. */
  function WriteFrom(g: Generation, jdk: Jdk, es: seq<(string, Node)>, i: nat, acc: seq<(string, Value)>): seq<(string, Value)>
    requires i <= |es|
    decreases MapNode(es), 0, |es| - i
  {
    if i == |es| then acc
    else WriteFrom(g, jdk, es, i + 1, Put(acc, es[i].0, WriteChild(g, jdk, es[i].1)))
  }

  /** What one child is written as: list children first, then map children, then the leaf value. */
  function WriteChild(g: Generation, jdk: Jdk, node: Node): Value
    decreases node, 1, 0
  {
    if node.ListNode? then ListV(WriteItems(g, jdk, node.items, 0, []))
    else if node.MapNode? then MapV(WriteFrom(g, jdk, node.entries, 0, []))
    else NormaliseLeaf(g, jdk, GetValue(node))
  }

  /** The list children `items[j..]` added to the list `acc`, one after the other. */
  function WriteItems(g: Generation, jdk: Jdk, items: seq<Node>, j: nat, acc: seq<Value>): seq<Value>
    requires j <= |items|
    decreases ListNode(items), 0, |items| - j
  {
    if j == |items| then acc
    else WriteItems(g, jdk, items, j + 1, acc + [WriteElement(g, jdk, items[j])])
  }

  /** What one list child is written as: a map child recursively, anything else as its raw value. */
  function WriteElement(g: Generation, jdk: Jdk, node: Node): Value
    decreases node, 1, 0
  {
    if node.MapNode? then MapV(WriteFrom(g, jdk, node.entries, 0, [])) else GetValue(node)
  }

  /** `writeNode(from)`: the map built from the node's map children. */
  function WriteNodeSpec(g: Generation, jdk: Jdk, from: Node): seq<(string, Value)> {
    WriteFrom(g, jdk, Children(from), 0, [])
  }

  /** `writeNode(from)`, both generations (`getChildrenMap`/`childrenMap`, `hasListChildren`/`isList`, `hasMapChildren`/`isMap`). */
  method WriteNode(g: Generation, jdk: Jdk, from: Node) returns (map': seq<(string, Value)>)
    ensures map' == WriteNodeSpec(g, jdk, from)
    decreases from, 0
  {
    var children := Children(from);
    map' := [];
    var i := 0;
    while i < |children|
      invariant 0 <= i <= |children|
      invariant WriteFrom(g, jdk, children, i, map') == WriteNodeSpec(g, jdk, from)
    {
      var key := children[i].0;
      var node := children[i].1;
      if node.ListNode? {
        var list := WriteList(g, jdk, node);
        map' := Put(map', key, ListV(list));
      } else if node.MapNode? {
        var m := WriteNode(g, jdk, node);
        map' := Put(map', key, MapV(m));
      } else {
        map' := Put(map', key, NormaliseLeaf(g, jdk, GetValue(node)));
      }
      i := i + 1;
    }
  }

  /** The loop of `writeNode` over a child with list children. */
  method WriteList(g: Generation, jdk: Jdk, node: Node) returns (list: seq<Value>)
    requires node.ListNode?
    ensures list == WriteItems(g, jdk, node.items, 0, [])
    decreases node, 0
  {
    var items := node.items;
    list := [];
    var j := 0;
    while j < |items|
      invariant 0 <= j <= |items|
      invariant WriteItems(g, jdk, items, j, list) == WriteItems(g, jdk, items, 0, [])
    {
      var listNode := items[j];
      if listNode.MapNode? {
        var m := WriteNode(g, jdk, listNode);
        list := list + [MapV(m)];
      } else {
        list := list + [GetValue(listNode)];
      }
      j := j + 1;
    }
  }

  // ---------------------------------------------------------------------------
  // What writeNode does

  /**
   * The ninja.leaping loader writes an `Instant` leaf as the `Date` that the `int` form of
   * `asDate` makes of it, and copies every other leaf value.
   */
  lemma NinjaLeafNormalisation(jdk: Jdk, v: Value)
    ensures !v.InstantV? ==> NormaliseLeaf(Ninja, jdk, v) == v
    ensures v.InstantV? ==>
      NormaliseLeaf(Ninja, jdk, v) == DateV(Date(Wrap32(v.instant.seconds * 1000) + v.instant.nanos / 1_000_000))
    ensures v.InstantV? && InIntRange(v.instant.seconds * 1000) ==>
      NormaliseLeaf(Ninja, jdk, v) == DateV(Date(ToEpochMilli(v.instant)))
  {
  }

  /**
   * The org.spongepowered loader writes every leaf value unchanged: `asDate` returns a
   * `Date` and `asInstant` an `Instant` as they are.
   */
  lemma SpongeLeavesUnchanged(jdk: Jdk, v: Value)
    ensures NormaliseLeaf(Sponge, jdk, v) == v
  {
    CoercionIdempotent(LongMultiply, jdk, v);
  }

  /** One entry per child, in the children's order: the map `writeNode` builds, when the keys are distinct. */
  function Pointwise(g: Generation, jdk: Jdk, es: seq<(string, Node)>): seq<(string, Value)> {
    seq(|es|, k requires 0 <= k < |es| => (es[k].0, WriteChild(g, jdk, es[k].1)))
  }

  lemma {:induction false} WriteFromPointwise(g: Generation, jdk: Jdk, es: seq<(string, Node)>, i: nat, acc: seq<(string, Value)>)
    requires DistinctKeys(es) && i <= |es| && acc == Pointwise(g, jdk, es)[..i]
    ensures WriteFrom(g, jdk, es, i, acc) == Pointwise(g, jdk, es)
    decreases |es| - i
  {
    var p := Pointwise(g, jdk, es);
    if i == |es| {
      assert p[..i] == p;
    } else {
      var key := es[i].0;
      assert !HasKey(acc, key) by {
        forall a | 0 <= a < i ensures acc[a].0 != key {
          assert acc[a] == p[a];
        }
      }
      assert Put(acc, key, WriteChild(g, jdk, es[i].1)) == acc + [p[i]];
      assert acc + [p[i]] == p[..i + 1];
      WriteFromPointwise(g, jdk, es, i + 1, p[..i + 1]);
    }
  }

  /**
   * `writeNode` emits exactly one entry per child, in the children map's order, under the
   * child's key, holding what that child is written as.
   */
  lemma WriteOneEntryPerChild(g: Generation, jdk: Jdk, from: Node)
    requires DistinctKeys(Children(from))
    ensures |WriteNodeSpec(g, jdk, from)| == |Children(from)|
    ensures forall k | 0 <= k < |Children(from)| ::
      WriteNodeSpec(g, jdk, from)[k] == (Children(from)[k].0, WriteChild(g, jdk, Children(from)[k].1))
  {
    WriteFromPointwise(g, jdk, Children(from), 0, []);
  }

  lemma {:induction false} WriteItemsPointwise(g: Generation, jdk: Jdk, items: seq<Node>, j: nat, acc: seq<Value>)
    requires j <= |items| && acc == seq(j, k requires 0 <= k < j => WriteElement(g, jdk, items[k]))
    ensures WriteItems(g, jdk, items, j, acc) == seq(|items|, k requires 0 <= k < |items| => WriteElement(g, jdk, items[k]))
    decreases |items| - j
  {
    if j < |items| {
      var acc' := acc + [WriteElement(g, jdk, items[j])];
      assert acc' == seq(j + 1, k requires 0 <= k < j + 1 => WriteElement(g, jdk, items[k]));
      WriteItemsPointwise(g, jdk, items, j + 1, acc');
    }
  }

  /**
   * A child with list children is written as a list, whatever else holds of it: one element
   * per list child in order, a list child with map children as a nested map and any other
   * as its raw value. A child with map children is written as a nested map, and a leaf
   * as its normalised value.
   */
  lemma WriteChildCases(g: Generation, jdk: Jdk, node: Node)
    ensures node.ListNode? ==> WriteChild(g, jdk, node).ListV?
    ensures node.ListNode? ==> |WriteChild(g, jdk, node).items| == |node.items|
    ensures node.ListNode? ==> forall k | 0 <= k < |node.items| ::
      WriteChild(g, jdk, node).items[k] ==
        if node.items[k].MapNode? then MapV(WriteNodeSpec(g, jdk, node.items[k])) else GetValue(node.items[k])
    ensures node.MapNode? ==> WriteChild(g, jdk, node) == MapV(WriteNodeSpec(g, jdk, node))
    ensures !node.ListNode? && !node.MapNode? ==> WriteChild(g, jdk, node) == NormaliseLeaf(g, jdk, GetValue(node))
  {
    if node.ListNode? {
      WriteItemsPointwise(g, jdk, node.items, 0, []);
    }
  }

  // ---------------------------------------------------------------------------
  // The round trip

  /**
   * Trees that `writeNode` gives back unchanged once stored: distinct keys, and (for the
   * ninja.leaping loader) no `Instant` directly under a table key.
   */
  predicate WritableEntries(g: Generation, m: seq<(string, Value)>)
    decreases MapV(m), 0
  {
    DistinctKeys(m) && forall i | 0 <= i < |m| :: WritableEntry(g, m[i].1)
  }

  predicate WritableEntry(g: Generation, v: Value)
    decreases v, 1
  {
    match v
    case MapV(m) => WritableEntries(g, m)
    case ListV(items) => forall k | 0 <= k < |items| :: WritableElement(g, items[k])
    case InstantV(_) => g == Sponge
    case _ => true
  }

  predicate WritableElement(g: Generation, e: Value)
    decreases e, 2
  {
    e.MapV? ==> WritableEntries(g, e.entries)
  }

  lemma {:induction false} WriteEntriesFresh(g: Generation, jdk: Jdk, m: seq<(string, Value)>)
    requires WritableEntries(g, m) && WellFormed(MapV(m))
    ensures WriteFrom(g, jdk, SetValue(MapV(m)).entries, 0, []) == m
    decreases MapV(m), 0
  {
    var es := SetValue(MapV(m)).entries;
    assert DistinctKeys(es) by {
      forall a, b | 0 <= a < b < |es| ensures es[a].0 != es[b].0 {
        assert es[a].0 == m[a].0 && es[b].0 == m[b].0;
      }
    }
    WriteFromPointwise(g, jdk, es, 0, []);
    forall k | 0 <= k < |m| ensures WriteChild(g, jdk, es[k].1) == m[k].1 {
      WriteChildFresh(g, jdk, m[k].1);
    }
    assert Pointwise(g, jdk, es) == m;
  }

  lemma {:induction false} WriteChildFresh(g: Generation, jdk: Jdk, v: Value)
    requires WritableEntry(g, v) && WellFormed(v)
    ensures WriteChild(g, jdk, SetValue(v)) == v
    decreases v, 1
  {
    match v
    case MapV(m) => WriteEntriesFresh(g, jdk, m);
    case ListV(items) => WriteItemsFresh(g, jdk, items);
    case _ => SpongeLeavesUnchanged(jdk, v);
  }

  lemma {:induction false} WriteItemsFresh(g: Generation, jdk: Jdk, items: seq<Value>)
    requires forall k | 0 <= k < |items| :: WritableElement(g, items[k])
    requires WellFormed(ListV(items))
    ensures WriteItems(g, jdk, SetValue(ListV(items)).items, 0, []) == items
    decreases ListV(items), 0
  {
    var ns := SetValue(ListV(items)).items;
    WriteItemsPointwise(g, jdk, ns, 0, []);
    forall k | 0 <= k < |items| ensures WriteElement(g, jdk, ns[k]) == items[k] {
      WriteElementFresh(g, jdk, items[k]);
    }
  }

  lemma {:induction false} WriteElementFresh(g: Generation, jdk: Jdk, e: Value)
    requires WritableElement(g, e) && WellFormed(e)
    ensures WriteElement(g, jdk, SetValue(e)) == e
    decreases e, 1
  {
    if e.MapV? {
      WriteEntriesFresh(g, jdk, e.entries);
    } else {
      GetSetValue(e);
    }
  }

  /**
   * Writing what was read gives the tree back, for toml4j's well-formed trees (distinct
   * keys, no null at any depth) with quote-free keys, no empty array or table, and (for
   * the ninja.leaping loader) no `Instant` directly under a table key.
   */
  lemma RoundTrip(g: Generation, jdk: Jdk, m: seq<(string, Value)>)
    requires ReadableEntries(m) && WritableEntries(g, m) && WellFormed(MapV(m))
    ensures WriteNodeSpec(g, jdk, ReadEntries(m, 0, Empty)) == m
  {
    if m != [] {
      ReadFreshIsSetValue(m);
      WriteEntriesFresh(g, jdk, m);
    }
  }

  /** A one-entry tree read into an empty node. */
  lemma ReadOneEntry(k: string, v: Value)
    ensures ReadEntries([(k, v)], 0, Empty) == Attach(Empty, StripQuotes(k), ReadValue(v, Empty))
  {
    var from := [(k, v)];
    assert from[0] == (k, v);
  }

  /** A node with one child written out. */
  lemma WriteOneChild(g: Generation, jdk: Jdk, k: string, c: Node)
    ensures WriteNodeSpec(g, jdk, MapNode([(k, c)])) == [(k, WriteChild(g, jdk, c))]
  {
    WriteOneEntryPerChild(g, jdk, MapNode([(k, c)]));
  }

  /** The round trip needs non-empty arrays and tables: an empty one is never attached, so it is not written back. */
  lemma EmptyArrayOrTableVanishes(g: Generation, jdk: Jdk, k: string, v: Value)
    requires v == ListV([]) || v == MapV([])
    ensures WriteNodeSpec(g, jdk, ReadEntries([(k, v)], 0, Empty)) == []
  {
    ReadOneEntry(k, v);
  }

  /** The round trip needs quote-free keys: a quoted key comes back without its quotes. */
  lemma QuotedKeyComesBackStripped(g: Generation, jdk: Jdk)
    ensures WriteNodeSpec(g, jdk, ReadEntries([("\"a\"", Int(1))], 0, Empty)) == [("a", Int(1))]
  {
    assert StripQuotes("\"a\"") == "a";
    ReadOneEntry("\"a\"", Int(1));
    assert Attach(Empty, "a", Leaf(Int(1))) == MapNode([("a", Leaf(Int(1)))]);
    WriteOneChild(g, jdk, "a", Leaf(Int(1)));
  }

  /**
   * The ninja.leaping loader needs no `Instant` under a table key: with `get(INSTANT_SECONDS)`
   * taken to return the epoch seconds (the JDK's own `Instant` throws there instead), one
   * is written back as the `Date` of its `int`-wrapped milliseconds, while the
   * org.spongepowered loader writes it back unchanged through `asInstant`.
   */
  lemma InstantLeafWrittenBack(jdk: Jdk, k: string, i: Instant)
    requires '"' !in k
    ensures WriteNodeSpec(Ninja, jdk, ReadEntries([(k, InstantV(i))], 0, Empty)) ==
      [(k, DateV(Date(Wrap32(i.seconds * 1000) + i.nanos / 1_000_000)))]
    ensures WriteNodeSpec(Sponge, jdk, ReadEntries([(k, InstantV(i))], 0, Empty)) == [(k, InstantV(i))]
  {
    var v := InstantV(i);
    ReadOneEntry(k, v);
    assert Attach(Empty, k, Leaf(v)) == MapNode([(k, Leaf(v))]);
    WriteOneChild(Ninja, jdk, k, Leaf(v));
    WriteOneChild(Sponge, jdk, k, Leaf(v));
    NinjaLeafNormalisation(jdk, v);
    SpongeLeavesUnchanged(jdk, v);
  }

  /**
   * The example's date of birth, 1979-05-27T07:32:00Z, held as an instant whose
   * `get(INSTANT_SECONDS)` returns 296638320, comes back from the ninja.leaping loader as
   * 285576576 ms (a JDK `Instant` would make `get` throw before the multiplication).
   */
  lemma ExampleDobWrittenBack(jdk: Jdk)
    ensures WriteNodeSpec(Ninja, jdk, ReadEntries([("dob", InstantV(Instant(296638320, 0)))], 0, Empty)) ==
      [("dob", DateV(Date(285576576)))]
  {
    InstantLeafWrittenBack(jdk, "dob", Instant(296638320, 0));
    assert Wrap32(296638320 * 1000) == 285576576;
  }

  // ---------------------------------------------------------------------------
  // The node's native types

  /** The Java classes the loaders name as types a node may hold as they are. */
  datatype JavaClass =
    | ListClass | MapClass | DoubleClass | FloatClass | IntegerClass
    | BooleanClass | StringClass | LongClass | InstantClass | DateClass

  /** The ninja.leaping loader's `createEmptyNode`: the accepted types, as one immutable set. */
  function NinjaAcceptedTypes(): (r: set<JavaClass>)
    ensures |r| == 10
  {
    {ListClass, MapClass, DoubleClass, InstantClass, FloatClass, IntegerClass, BooleanClass, StringClass, LongClass, DateClass}
  }

  /** The org.spongepowered loader's `createNode`: the native types, added one by one to a hash set. */
  method SpongeNativeTypes() returns (types: set<JavaClass>)
    ensures types == NinjaAcceptedTypes()
    ensures |types| == 10
  {
    types := {};
    types := types + {ListClass};
    types := types + {MapClass};
    types := types + {DoubleClass};
    types := types + {FloatClass};
    types := types + {IntegerClass};
    types := types + {BooleanClass};
    types := types + {StringClass};
    types := types + {LongClass};
    types := types + {InstantClass};
    types := types + {DateClass};
  }

  /** The class of a value toml4j hands over (a TOML integer is a `Long`, a float a `Double`). */
  function ClassOf(v: Value): Option<JavaClass> {
    match v
    case Str(_) => Some(StringClass)
    case Int(_) => Some(LongClass)
    case Dbl(_) => Some(DoubleClass)
    case Bool(_) => Some(BooleanClass)
    case DateV(_) => Some(DateClass)
    case InstantV(_) => Some(InstantClass)
    case MapV(_) => Some(MapClass)
    case ListV(_) => Some(ListClass)
    case _ => None
  }

  /** Every value toml4j produces (anything but null and a foreign temporal) has a class both loaders accept. */
  lemma NativeTypesCoverValues(v: Value)
    ensures ClassOf(v).Some? <==> !v.Null? && !v.TemporalV?
    ensures ClassOf(v).Some? ==> ClassOf(v).value in NinjaAcceptedTypes()
  {
  }
}

=== FILE: moretypes.dfy ===
/**
 * The date/time coercions and serializers of the three `MoreTypes` generations:
 * `ninja.leaping` (Configurate 3, registered globally), `me.lucko` (scalar serializers
 * that write text) and `org.spongepowered` (Configurate 4, defaults instead of null).
 * The three share `asInstant` and the strict filters; `asDate` differs in the width of
 * one multiplication.
 */
module MoreTypes {
  import opened Values
  import opened ConfigNodes

  /**
   * The JDK and locale services the coercions call. They are not part of this model and
   * are passed in; `None` stands for the exception each of them throws on bad input.
   */
  datatype Jdk = Jdk(
    objectToString: Value -> string,          // Object.toString() of a non-string value
    dateFormatParse: string -> Option<Date>,  // DateFormat.getInstance().parse
    dateFormatFormat: Date -> string,         // DateFormat.getInstance().format
    instantParse: string -> Option<Instant>,  // Instant.parse
    instantFrom: Accessor -> Option<Instant>, // Instant.from
    isoInstantFormat: Instant -> string)      // DateTimeFormatter.ISO_INSTANT.format

  /** `value.toString()`. */
  function ToText(jdk: Jdk, v: Value): string {
    if v.Str? then v.s else jdk.objectToString(v)
  }

  /** `Instant.ofEpochMilli(ms)`: floor division, so the nano adjustment is never negative. */
  function OfEpochMilli(ms: int): Instant {
    Instant(ms / 1000, (ms % 1000) * 1_000_000)
  }

  /** `Instant.toEpochMilli()`: sub-millisecond nanos are dropped. */
  function ToEpochMilli(i: Instant): int {
    i.seconds * 1000 + i.nanos / 1_000_000
  }

  /** The value seen as a `TemporalAccessor`: `INSTANT_SECONDS` and `MILLI_OF_SECOND`, if it is one. */
  function AsAccessor(v: Value): Option<Accessor> {
    match v
    case InstantV(i) => Some(Accessor(Some(i.seconds), Some(i.nanos / 1_000_000)))
    case TemporalV(a) => Some(a)
    case _ => None
  }

  /** The width of `get(INSTANT_SECONDS) * 1000`: an `int` times `1000`, or times `1000L`. */
  datatype Multiply = IntMultiply | LongMultiply

  /** `millis = seconds * 1000; millis += milliOfSecond` when that field is supported. */
  function TemporalMillis(m: Multiply, seconds: int, milli: Option<int>): int {
    (if m == IntMultiply then Wrap32(seconds * 1000) else seconds * 1000) + milli.GetOr(0)
  }

  /**
   * `asDate`: null stays null; a `Date` is returned as it is; a temporal accessor that
   * supports instant seconds gives its epoch milliseconds; a number is epoch milliseconds;
   * anything else is turned into text and parsed by the locale's `DateFormat`.
   */
  function AsDate(m: Multiply, jdk: Jdk, v: Value): (r: Option<Date>)
    ensures v.Null? ==> r.None?
    ensures r.None? ==> !v.DateV? && !v.InstantV? && !IsNumber(v)
    ensures IsNumber(v) ==> r == Some(Date(LongValue(v)))
  {
    if v.Null? then None
    else if v.DateV? then Some(v.date)
    else if AsAccessor(v).Some? && AsAccessor(v).value.instantSeconds.Some? then
      var a := AsAccessor(v).value;
      Some(Date(TemporalMillis(m, a.instantSeconds.value, a.milliOfSecond)))
    else if IsNumber(v) then Some(Date(LongValue(v)))
    else jdk.dateFormatParse(ToText(jdk, v))
  }

  /** `asDate` of the `ninja.leaping` generation: `int` multiplication. */
  function NinjaAsDate(jdk: Jdk, v: Value): (r: Option<Date>)
    ensures v.InstantV? ==> r == Some(Date(Wrap32(v.instant.seconds * 1000) + v.instant.nanos / 1_000_000))
    ensures v.InstantV? && InIntRange(v.instant.seconds * 1000) ==> r == Some(Date(ToEpochMilli(v.instant)))
  {
    AsDate(IntMultiply, jdk, v)
  }

  /** `asDate` of the `me.lucko` generation: the same `int` multiplication. */
  function LuckoAsDate(jdk: Jdk, v: Value): (r: Option<Date>)
    ensures r == NinjaAsDate(jdk, v)
  {
    AsDate(IntMultiply, jdk, v)
  }

  /** `asDate` of the `org.spongepowered` generation: `long` multiplication. */
  function SpongeAsDate(jdk: Jdk, v: Value): (r: Option<Date>)
    ensures v.InstantV? ==> r == Some(Date(ToEpochMilli(v.instant)))
  {
    AsDate(LongMultiply, jdk, v)
  }

  /**
   * `asInstant` (identical in all three generations): null stays null; an `Instant` is
   * returned as it is; a `Date` keeps its epoch milliseconds; another temporal accessor
   * goes through `Instant.from`; anything else, numbers included, is turned into text and
   * parsed as an ISO-8601 instant.
   */
  function AsInstant(jdk: Jdk, v: Value): (r: Option<Instant>)
    ensures v.Null? ==> r.None?
    ensures r.None? ==> !v.InstantV? && !v.DateV?
    ensures v.DateV? ==> ToEpochMilli(r.value) == v.date.millis
  {
    match v
    case Null => None
    case InstantV(i) => Some(i)
    case DateV(d) => Some(OfEpochMilli(d.millis))
    case TemporalV(a) => jdk.instantFrom(a)
    case _ => jdk.instantParse(ToText(jdk, v))
  }

  /** `strictAsDate`. */
  function StrictAsDate(v: Value): (r: Option<Date>)
    ensures r.Some? <==> v.DateV?
    ensures r.Some? ==> v == DateV(r.value)
  {
    if v.DateV? then Some(v.date) else None
  }

  /** `strictAsInstant`. */
  function StrictAsInstant(v: Value): (r: Option<Instant>)
    ensures r.Some? <==> v.InstantV?
    ensures r.Some? ==> v == InstantV(r.value)
  {
    if v.InstantV? then Some(v.instant) else None
  }

  // ---------------------------------------------------------------------------
  // Properties shared by the generations

  /** Null in, null out, for both coercions and every generation. */
  lemma NullCoercesToNull(m: Multiply, jdk: Jdk)
    ensures AsDate(m, jdk, Null) == None
    ensures AsInstant(jdk, Null) == None
    ensures StrictAsDate(Null) == None && StrictAsInstant(Null) == None
  {
  }

  /**
   * A value of the target type comes back unchanged, so each coercion is idempotent on
   * the values it returns.
   */
  lemma CoercionIdempotent(m: Multiply, jdk: Jdk, v: Value)
    ensures forall d :: AsDate(m, jdk, DateV(d)) == Some(d)
    ensures forall i :: AsInstant(jdk, InstantV(i)) == Some(i)
    ensures AsDate(m, jdk, v).Some? ==> AsDate(m, jdk, DateV(AsDate(m, jdk, v).value)) == AsDate(m, jdk, v)
    ensures AsInstant(jdk, v).Some? ==> AsInstant(jdk, InstantV(AsInstant(jdk, v).value)) == AsInstant(jdk, v)
  {
  }

  /** A number is read as epoch milliseconds through `longValue()`. */
  lemma NumberIsEpochMillis(m: Multiply, jdk: Jdk, v: Value)
    requires IsNumber(v)
    ensures AsDate(m, jdk, v) == Some(Date(LongValue(v)))
    ensures v.Int? ==> AsDate(m, jdk, v) == Some(Date(v.n))
  {
  }

  /**
   * `asInstant` has no number branch: a number is parsed as text, so unless the ISO
   * parser accepts its decimal text the result is null, not the instant at that many
   * epoch milliseconds.
   */
  lemma AsInstantParsesNumbers(jdk: Jdk, v: Value)
    requires IsNumber(v)
    ensures AsInstant(jdk, v) == jdk.instantParse(jdk.objectToString(v))
    ensures jdk.instantParse(jdk.objectToString(v)).None? ==> AsInstant(jdk, v).None?
  {
  }

  /**
   * `asInstant` returns null exactly when the input is null, when `Instant.from` rejects a
   * temporal accessor, or when the text of any other non-date value does not parse.
   */
  lemma AsInstantNullCases(jdk: Jdk, v: Value)
    ensures AsInstant(jdk, v).None? <==>
      || v.Null?
      || (v.TemporalV? && jdk.instantFrom(v.accessor).None?)
      || (!v.Null? && !v.InstantV? && !v.DateV? && !v.TemporalV? && jdk.instantParse(ToText(jdk, v)).None?)
  {
  }

  /**
   * `asDate` returns null exactly when the input is null, or when it is neither a `Date`,
   * nor a temporal accessor with instant seconds, nor a number, and the locale's
   * `DateFormat` cannot parse its text.
   */
  lemma AsDateNullCases(m: Multiply, jdk: Jdk, v: Value)
    ensures AsDate(m, jdk, v).None? <==>
      || v.Null?
      || (!v.DateV? && !(v.InstantV? || (v.TemporalV? && v.accessor.instantSeconds.Some?)) && !IsNumber(v)
          && jdk.dateFormatParse(ToText(jdk, v)).None?)
  {
  }

  lemma DivModThousand(s: int, q: int)
    requires 0 <= q < 1000
    ensures (s * 1000 + q) / 1000 == s
    ensures (s * 1000 + q) % 1000 == q
  {
    var x := s * 1000 + q;
    var d, r := x / 1000, x % 1000;
    assert x == d * 1000 + r;
    assert (d - s) * 1000 == q - r;
  }

  lemma MilliOfNanos(q: int)
    requires 0 <= q < 1000
    ensures 0 <= q * 1_000_000 < 1_000_000_000
    ensures (q * 1_000_000) / 1_000_000 == q
  {
    var n := q * 1_000_000;
    var d, r := n / 1_000_000, n % 1_000_000;
    assert n == d * 1_000_000 + r;
    assert (d - q) * 1_000_000 == -r;
  }

  /** `asInstant` of a `Date` is a non-null instant with the same epoch milliseconds. */
  lemma AsInstantKeepsDateMillis(jdk: Jdk, d: Date)
    ensures AsInstant(jdk, DateV(d)).Some?
    ensures ToEpochMilli(AsInstant(jdk, DateV(d)).value) == d.millis
  {
    var ms := d.millis;
    MilliOfNanos(ms % 1000);
    assert ToEpochMilli(OfEpochMilli(ms)) == (ms / 1000) * 1000 + ms % 1000;
  }

  // ---------------------------------------------------------------------------
  // The temporal branch of asDate and the width of its multiplication

  /**
   * With `long` arithmetic the temporal branch gives `seconds * 1000 + milliOfSecond`;
   * for an `Instant` that is exactly its epoch milliseconds.
   */
  lemma SpongeTemporalMillis(jdk: Jdk, a: Accessor, i: Instant)
    requires a.instantSeconds.Some?
    ensures SpongeAsDate(jdk, TemporalV(a)) ==
      Some(Date(a.instantSeconds.value * 1000 + a.milliOfSecond.GetOr(0)))
    ensures SpongeAsDate(jdk, InstantV(i)) == Some(Date(ToEpochMilli(i)))
  {
  }

  /**
   * With `int` arithmetic the product wraps modulo 2^32 before the milliseconds are
   * added, and the result agrees with the `long` one exactly when `seconds * 1000`
   * fits in an `int`.
   */
  lemma IntMultiplyAgreesIffInRange(jdk: Jdk, a: Accessor)
    requires a.instantSeconds.Some?
    ensures NinjaAsDate(jdk, TemporalV(a)) ==
      Some(Date(Wrap32(a.instantSeconds.value * 1000) + a.milliOfSecond.GetOr(0)))
    ensures LuckoAsDate(jdk, TemporalV(a)) == NinjaAsDate(jdk, TemporalV(a))
    ensures NinjaAsDate(jdk, TemporalV(a)) == SpongeAsDate(jdk, TemporalV(a)) <==>
      InIntRange(a.instantSeconds.value * 1000)
  {
    var s := a.instantSeconds.value * 1000;
    assert Wrap32(s) == s <==> InIntRange(s);
  }

  /**
   * A temporal accessor whose `get(INSTANT_SECONDS)` returns 296638320 (the instant
   * 1979-05-27T07:32:00Z) comes out of the `int` multiplication as 285576576 ms, early on
   * 1970-01-04, not as 296638320000 ms. The JDK's own temporal types throw in `get` for
   * that field before the multiplication; `getLong(INSTANT_SECONDS) * 1000L` avoids both.
   */
  lemma IntMultiplyOverflowExample(jdk: Jdk)
    ensures NinjaAsDate(jdk, TemporalV(Accessor(Some(296638320), Some(0)))) == Some(Date(285576576))
    ensures SpongeAsDate(jdk, TemporalV(Accessor(Some(296638320), Some(0)))) == Some(Date(296638320000))
  {
    assert Wrap32(296638320 * 1000) == 285576576;
  }

  /** A `Date` survives `asInstant` followed by the `long` `asDate`. */
  lemma DateInstantDateRoundTrip(jdk: Jdk, d: Date)
    ensures AsInstant(jdk, DateV(d)).Some?
    ensures SpongeAsDate(jdk, InstantV(AsInstant(jdk, DateV(d)).value)) == Some(d)
  {
    AsInstantKeepsDateMillis(jdk, d);
  }

  /** An `Instant` survives the `long` `asDate` followed by `asInstant` up to its whole milliseconds. */
  lemma InstantDateInstantTruncates(jdk: Jdk, i: Instant)
    ensures SpongeAsDate(jdk, InstantV(i)).Some?
    ensures AsInstant(jdk, DateV(SpongeAsDate(jdk, InstantV(i)).value)) ==
      Some(Instant(i.seconds, (i.nanos / 1_000_000) * 1_000_000))
  {
    var q := i.nanos / 1_000_000;
    DivModThousand(i.seconds, q);
  }

  // ---------------------------------------------------------------------------
  // The strict variants

  /** The strict coercions are type filters: they return the input exactly when it already has the type. */
  lemma StrictIsTypeFilter(v: Value)
    ensures forall d :: StrictAsDate(v) == Some(d) <==> v == DateV(d)
    ensures forall i :: StrictAsInstant(v) == Some(i) <==> v == InstantV(i)
  {
  }

  /** Whatever a strict coercion accepts, the lenient one returns unchanged. */
  lemma StrictAgreesWithLenient(m: Multiply, jdk: Jdk, v: Value)
    ensures StrictAsDate(v).Some? ==> AsDate(m, jdk, v) == StrictAsDate(v)
    ensures StrictAsInstant(v).Some? ==> AsInstant(jdk, v) == StrictAsInstant(v)
  {
  }

  // ---------------------------------------------------------------------------
  // Serializers of the ninja.leaping generation: the node holds the object itself

  function NinjaInstantDeserialize(jdk: Jdk, node: Node): (r: Option<Instant>)
    ensures node.Empty? ==> r.None?
    ensures node.Leaf? && node.value.InstantV? ==> r == Some(node.value.instant)
  {
    AsInstant(jdk, GetValue(node))
  }

  function NinjaInstantSerialize(obj: Instant): (r: Node)
    ensures GetValue(r) == InstantV(obj)
  {
    SetValue(InstantV(obj))
  }

  function NinjaDateDeserialize(jdk: Jdk, node: Node): (r: Option<Date>)
    ensures node.Empty? ==> r.None?
    ensures node.Leaf? && node.value.DateV? ==> r == Some(node.value.date)
  {
    NinjaAsDate(jdk, GetValue(node))
  }

  function NinjaDateSerialize(obj: Date): (r: Node)
    ensures GetValue(r) == DateV(obj)
  {
    SetValue(DateV(obj))
  }

  /**
   * Serializing stores the object itself as the node's value and deserializing coerces the
   * node's value, so each serializer gives back what it stored.
   */
  lemma NinjaSerializersRoundTrip(jdk: Jdk, i: Instant, d: Date, node: Node)
    ensures GetValue(NinjaInstantSerialize(i)) == InstantV(i)
    ensures NinjaInstantDeserialize(jdk, NinjaInstantSerialize(i)) == Some(i)
    ensures GetValue(NinjaDateSerialize(d)) == DateV(d)
    ensures NinjaDateDeserialize(jdk, NinjaDateSerialize(d)) == Some(d)
    ensures NinjaInstantDeserialize(jdk, node) == AsInstant(jdk, GetValue(node))
    ensures NinjaDateDeserialize(jdk, node) == AsDate(IntMultiply, jdk, GetValue(node))
  {
  }

  /**
   * toml4j hands the example's offset date-time 1979-05-27T07:32:00Z over as a `Date`;
   * asking the node for an `Instant` gives 296638320 epoch seconds back, in both generations.
   */
  lemma ExampleDobAsInstant(jdk: Jdk)
    ensures NinjaInstantDeserialize(jdk, Leaf(DateV(Date(296638320000)))) == Some(Instant(296638320, 0))
    ensures SpongeInstantDeserialize(jdk, Leaf(DateV(Date(296638320000)))) == Instant(296638320, 0)
  {
    AsInstantKeepsDateMillis(jdk, Date(296638320000));
  }

  // ---------------------------------------------------------------------------
  // Serializers of the me.lucko generation: scalar serializers that write text

  function LuckoInstantDeserialize(jdk: Jdk, obj: Value): (r: Option<Instant>)
    ensures obj.Str? ==> r == jdk.instantParse(obj.s)
    ensures obj.InstantV? ==> r == Some(obj.instant)
  {
    AsInstant(jdk, obj)
  }

  function LuckoInstantSerialize(jdk: Jdk, item: Instant): (r: Value)
    ensures r.Str?
    ensures jdk.instantParse(jdk.isoInstantFormat(item)) == Some(item) ==> jdk.instantParse(r.s) == Some(item)
  {
    Str(jdk.isoInstantFormat(item))
  }

  function LuckoDateDeserialize(jdk: Jdk, obj: Value): (r: Option<Date>)
    ensures obj.Str? ==> r == jdk.dateFormatParse(obj.s)
    ensures obj.DateV? ==> r == Some(obj.date)
  {
    LuckoAsDate(jdk, obj)
  }

  function LuckoDateSerialize(jdk: Jdk, item: Date): (r: Value)
    ensures r.Str?
    ensures jdk.dateFormatParse(r.s) == Some(item) <==> jdk.dateFormatParse(jdk.dateFormatFormat(item)) == Some(item)
  {
    Str(jdk.dateFormatFormat(item))
  }

  /**
   * An instant is written as ISO-8601 text (the date-time form of section 5.6 of RFC 3339)
   * and read back by parsing that text, so it survives whenever the ISO parser inverts
   * the ISO formatter on it.
   */
  lemma LuckoInstantRoundTrip(jdk: Jdk, i: Instant)
    requires jdk.instantParse(jdk.isoInstantFormat(i)) == Some(i)
    ensures LuckoInstantSerialize(jdk, i).Str?
    ensures LuckoInstantDeserialize(jdk, LuckoInstantSerialize(jdk, i)) == Some(i)
  {
  }

  /**
   * A date is written as locale-formatted text and read back through the same locale's
   * parser, so it survives exactly when that parser inverts that formatter on it.
   */
  lemma LuckoDateRoundTrip(jdk: Jdk, d: Date)
    ensures LuckoDateSerialize(jdk, d).Str?
    ensures LuckoDateDeserialize(jdk, LuckoDateSerialize(jdk, d)) == Some(d) <==>
      jdk.dateFormatParse(jdk.dateFormatFormat(d)) == Some(d)
  {
  }

  // ---------------------------------------------------------------------------
  // Serializers of the org.spongepowered generation: defaults instead of null

  function SpongeInstantDeserialize(jdk: Jdk, node: Node): (r: Instant)
    ensures node.Empty? ==> r == Epoch
    ensures node.Leaf? && node.value.InstantV? ==> r == node.value.instant
    ensures AsInstant(jdk, GetValue(node)).Some? ==> r == AsInstant(jdk, GetValue(node)).value
  {
    AsInstant(jdk, GetValue(node)).GetOr(Epoch)
  }

  function SpongeInstantSerialize(obj: Option<Instant>): (r: Node)
    ensures r.Empty? <==> obj.None?
    ensures obj.Some? ==> GetValue(r) == InstantV(obj.value)
  {
    SetValue(if obj.Some? then InstantV(obj.value) else Null)
  }

  function SpongeDateDeserialize(jdk: Jdk, node: Node): (r: Date)
    ensures node.Empty? ==> r == Date(0)
    ensures node.Leaf? && node.value.DateV? ==> r == node.value.date
    ensures SpongeAsDate(jdk, GetValue(node)).Some? ==> r == SpongeAsDate(jdk, GetValue(node)).value
  {
    SpongeAsDate(jdk, GetValue(node)).GetOr(Date(0))
  }

  function SpongeDateSerialize(obj: Option<Date>): (r: Node)
    ensures r.Empty? <==> obj.None?
    ensures obj.Some? ==> GetValue(r) == DateV(obj.value)
  {
    SetValue(if obj.Some? then DateV(obj.value) else Null)
  }

  /**
   * Deserializing never yields null: a value that does not coerce becomes `Instant.EPOCH`
   * or the epoch `Date`; one that does comes back as the coercion gives it.
   */
  lemma SpongeDeserializeDefaultsToEpoch(jdk: Jdk, node: Node)
    ensures AsInstant(jdk, GetValue(node)).None? ==> SpongeInstantDeserialize(jdk, node) == Epoch
    ensures AsInstant(jdk, GetValue(node)).Some? ==>
      SpongeInstantDeserialize(jdk, node) == AsInstant(jdk, GetValue(node)).value
    ensures SpongeAsDate(jdk, GetValue(node)).None? ==> SpongeDateDeserialize(jdk, node) == Date(0)
    ensures SpongeAsDate(jdk, GetValue(node)).Some? ==>
      SpongeDateDeserialize(jdk, node) == SpongeAsDate(jdk, GetValue(node)).value
  {
  }

  /** Serializing stores the object (or clears the node for null), and deserializing gives it back (or the epoch). */
  lemma SpongeSerializersRoundTrip(jdk: Jdk, i: Instant, d: Date)
    ensures SpongeInstantDeserialize(jdk, SpongeInstantSerialize(Some(i))) == i
    ensures SpongeInstantSerialize(None) == Empty
    ensures SpongeInstantDeserialize(jdk, SpongeInstantSerialize(None)) == Epoch
    ensures SpongeDateDeserialize(jdk, SpongeDateSerialize(Some(d))) == d
    ensures SpongeDateSerialize(None) == Empty
    ensures SpongeDateDeserialize(jdk, SpongeDateSerialize(None)) == Date(0)
  {
  }

  // ---------------------------------------------------------------------------
  // Serializer collections: a child collection consulted before its parent

  datatype JavaType = InstantType | DateType | OtherType(name: string)

  datatype Serializer = InstantSerializer | DateSerializer | Library(name: string)

  datatype Collection = Collection(registered: seq<(JavaType, Serializer)>, parent: seq<(JavaType, Serializer)>)

  function FirstFor(rs: seq<(JavaType, Serializer)>, t: JavaType): Option<Serializer> {
    if rs == [] then None else if rs[0].0 == t then Some(rs[0].1) else FirstFor(rs[1..], t)
  }

  /** `collection.get(type)`: a serializer registered on the child wins over the parent's. */
  function Get(c: Collection, t: JavaType): Option<Serializer> {
    var own := FirstFor(c.registered, t);
    if own.Some? then own else FirstFor(c.parent, t)
  }

  /** `getTypeSerializers()`: the defaults with a Date and then an Instant serializer registered on top. */
  function SpongeTypeSerializers(defaults: seq<(JavaType, Serializer)>): (r: Collection)
    ensures r.parent == defaults && |r.registered| == 2
    ensures Get(r, DateType) == Some(DateSerializer) && Get(r, InstantType) == Some(InstantSerializer)
  {
    Collection([(DateType, DateSerializer), (InstantType, InstantSerializer)], defaults)
  }

  /** `SERIALIZERS`: the defaults with an Instant and then a Date serializer registered on top. */
  function LuckoSerializers(defaults: seq<(JavaType, Serializer)>): (r: Collection)
    ensures r.parent == defaults && |r.registered| == 2
    ensures Get(r, DateType) == Some(DateSerializer) && Get(r, InstantType) == Some(InstantSerializer)
  {
    Collection([(InstantType, InstantSerializer), (DateType, DateSerializer)], defaults)
  }

  /**
   * Exactly two serializers are added: `Date` and `Instant` resolve to this module's
   * serializers whatever the defaults hold, and every other type resolves as in the defaults.
   */
  lemma SerializerCollectionsResolve(defaults: seq<(JavaType, Serializer)>, t: JavaType)
    ensures |SpongeTypeSerializers(defaults).registered| == 2
    ensures Get(SpongeTypeSerializers(defaults), DateType) == Some(DateSerializer)
    ensures Get(SpongeTypeSerializers(defaults), InstantType) == Some(InstantSerializer)
    ensures t != DateType && t != InstantType ==> Get(SpongeTypeSerializers(defaults), t) == FirstFor(defaults, t)
    ensures forall u :: Get(LuckoSerializers(defaults), u) == Get(SpongeTypeSerializers(defaults), u)
  {
    forall u ensures Get(LuckoSerializers(defaults), u) == Get(SpongeTypeSerializers(defaults), u) {
      RegisteredPair(u);
    }
    RegisteredPair(t);
  }

  lemma RegisteredPair(u: JavaType)
    ensures FirstFor([(DateType, DateSerializer), (InstantType, InstantSerializer)], u) ==
      FirstFor([(InstantType, InstantSerializer), (DateType, DateSerializer)], u) ==
      if u == DateType then Some(DateSerializer) else if u == InstantType then Some(InstantSerializer) else None
  {
    var a := [(DateType, DateSerializer), (InstantType, InstantSerializer)];
    var b := [(InstantType, InstantSerializer), (DateType, DateSerializer)];
    assert a[1..][1..] == [] && b[1..][1..] == [];
    assert FirstFor(a[1..][1..], u) == None && FirstFor(b[1..][1..], u) == None;
    if u != DateType && u != InstantType {
      assert FirstFor(a[1..], u) == None;
      assert FirstFor(b[1..], u) == None;
    }
  }
}

=== FILE: nodes.dfy ===
/**
 * A minimal model of a Configurate configuration node, as far as the TOML loader
 * uses it: a node is empty (virtual, or holding null), holds a scalar, or has
 * ordered list children or insertion-ordered map children.
 */
module ConfigNodes {
  import opened Values

  datatype Node =
    | Empty
    | Leaf(value: Value)
    | ListNode(items: seq<Node>)
    | MapNode(entries: seq<(string, Node)>)

  /** `getChildrenMap()` / `childrenMap()`: empty unless the node is a map. */
  function Children(n: Node): seq<(string, Node)> {
    if n.MapNode? then n.entries else []
  }

  /** `getChildrenList()` / `childrenList()`: empty unless the node is a list. */
  function ListChildren(n: Node): seq<Node> {
    if n.ListNode? then n.items else []
  }

  /** `getNode(key)` / `node(key)`: the attached child, or a fresh virtual node. */
  function Child(n: Node, key: string): Node {
    Lookup(Children(n), key).GetOr(Empty)
  }

  /**
   * What the parent looks like once the child obtained by `Child(n, key)` has become `c`:
   * a non-empty child is attached under `key` (turning the parent into a map), an empty
   * one is detached (a virtual node that was never given a value is never attached).
   */
  function Attach(n: Node, key: string, c: Node): Node {
    if c.Empty? then (if n.MapNode? then MapNode(Remove(n.entries, key)) else n)
    else MapNode(Put(Children(n), key, c))
  }

  /** `getNode(key)` gives the child attached under `key`, or an empty node when there is none. */
  lemma ChildIsAttachedOrVirtual(n: Node, key: string)
    ensures HasKey(Children(n), key) ==> (key, Child(n, key)) in Children(n)
    ensures !HasKey(Children(n), key) ==> Child(n, key) == Empty
  {
    if HasKey(Children(n), key) {
      var i := IndexOf(Children(n), key);
      assert Children(n)[i] == (key, Child(n, key));
    }
  }

  /** A non-empty appended node becomes the last list child, after the existing ones; an empty one is never attached. */
  lemma AppendChildAppends(n: Node, c: Node)
    ensures c.Empty? ==> AppendChild(n, c) == n
    ensures !c.Empty? ==> AppendChild(n, c).ListNode? && |ListChildren(AppendChild(n, c))| == |ListChildren(n)| + 1
    ensures !c.Empty? ==> ListChildren(AppendChild(n, c))[..|ListChildren(n)|] == ListChildren(n)
    ensures !c.Empty? ==> ListChildren(AppendChild(n, c))[|ListChildren(n)|] == c
  {
  }

  /** Attaching under `key` makes `c` the child at `key` and leaves every other child as it was. */
  lemma AttachChild(n: Node, key: string, c: Node, k: string)
    ensures Child(Attach(n, key, c), k) == if k == key then c else Child(n, k)
  {
    if c.Empty? {
      if n.MapNode? { RemoveLookup(n.entries, key, k); }
    } else {
      PutLookup(Children(n), key, c, k);
    }
  }

  /**
   * What the parent looks like once the node obtained by `getAppendedNode()` /
   * `appendListNode()` has become `c`: a non-empty node is added after the existing
   * list children; an empty one was never attached.
   */
  function AppendChild(n: Node, c: Node): Node {
    if c.Empty? then n else ListNode(ListChildren(n) + [c])
  }

  /** `setValue(v)` / `raw(v)` on a fresh node: maps and lists become children, null leaves it empty. */
  function SetValue(v: Value): (r: Node)
    ensures r.Empty? <==> v.Null?
    ensures r.MapNode? <==> v.MapV?
    ensures r.ListNode? <==> v.ListV?
  {
    match v
    case Null => Empty
    case MapV(es) => MapNode(seq(|es|, i requires 0 <= i < |es| => (es[i].0, SetValue(es[i].1))))
    case ListV(vs) => ListNode(seq(|vs|, i requires 0 <= i < |vs| => SetValue(vs[i])))
    case _ => Leaf(v)
  }

  /** `getValue()` / `raw()`: children are converted back into a map or a list. */
  function GetValue(n: Node): Value {
    match n
    case Empty => Null
    case Leaf(v) => v
    case ListNode(items) => ListV(seq(|items|, i requires 0 <= i < |items| => GetValue(items[i])))
    case MapNode(es) => MapV(seq(|es|, i requires 0 <= i < |es| => (es[i].0, GetValue(es[i].1))))
  }

  /**
   * Reading a node's value back gives the value it was set to, for every value toml4j
   * hands over (no null inside a table or an array).
   */
  lemma {:induction false} GetSetValue(v: Value)
    requires WellFormed(v)
    ensures GetValue(SetValue(v)) == v
  {
    match v
    case MapV(es) =>
      forall i | 0 <= i < |es| ensures GetValue(SetValue(es[i].1)) == es[i].1 {
        GetSetValue(es[i].1);
      }
      assert GetValue(SetValue(v)).entries == es;
    case ListV(vs) =>
      forall i | 0 <= i < |vs| ensures GetValue(SetValue(vs[i])) == vs[i] {
        GetSetValue(vs[i]);
      }
      assert GetValue(SetValue(v)).items == vs;
    case _ =>
  }

  /** The shape of an attached tree: unique keys, no empty child, scalars only in leaves. */
  predicate Valid(n: Node) {
    match n
    case Empty => true
    case Leaf(v) => !v.MapV? && !v.ListV? && !v.Null?
    case ListNode(items) => forall i | 0 <= i < |items| :: !items[i].Empty? && Valid(items[i])
    case MapNode(es) => DistinctKeys(es) && forall i | 0 <= i < |es| :: !es[i].1.Empty? && Valid(es[i].1)
  }

  /** Setting a well-formed value builds a valid tree. */
  lemma {:induction false} SetValueValid(v: Value)
    requires WellFormed(v)
    ensures Valid(SetValue(v))
  {
    match v
    case MapV(es) =>
      forall i | 0 <= i < |es| ensures Valid(SetValue(es[i].1)) {
        SetValueValid(es[i].1);
      }
    case ListV(vs) =>
      forall i | 0 <= i < |vs| ensures Valid(SetValue(vs[i])) {
        SetValueValid(vs[i]);
      }
    case _ =>
  }

  lemma ChildValid(n: Node, k: string)
    requires Valid(n)
    ensures Valid(Child(n, k))
  {
  }

  /** Attaching or detaching a valid child keeps the parent valid. */
  lemma AttachValid(n: Node, key: string, c: Node)
    requires Valid(n) && Valid(c)
    ensures Valid(Attach(n, key, c))
  {
    if c.Empty? {
      if n.MapNode? {
        RemoveKeepsDistinct(n.entries, key);
        RemoveKeepsEntries(n.entries, key);
        var r := Remove(n.entries, key);
        forall i | 0 <= i < |r| ensures !r[i].1.Empty? && Valid(r[i].1) {
          assert r[i] in n.entries;
        }
      }
    } else {
      var es := Children(n);
      assert DistinctKeys(es);
      PutKeepsDistinct(es, key, c);
      PutEntries(es, key, c);
      var r := Put(es, key, c);
      forall i | 0 <= i < |r| ensures !r[i].1.Empty? && Valid(r[i].1) {
        assert r[i] in r;
      }
    }
  }

  /** Appending a valid child keeps the parent valid. */
  lemma AppendValid(n: Node, c: Node)
    requires Valid(n) && Valid(c)
    ensures Valid(AppendChild(n, c))
  {
    if !c.Empty? {
      var r := ListChildren(n) + [c];
      assert forall i | 0 <= i < |ListChildren(n)| :: r[i] == ListChildren(n)[i];
    }
  }
}

=== FILE: values.dfy ===
/**
 * The untyped value tree that toml4j hands to the loader (and takes back from it),
 * together with the two JDK time types the loader coerces between, and the bits of
 * Java integer arithmetic whose width matters to the coercions.
 */
module Values {

  datatype Option<T> = None | Some(value: T) {
    function GetOr(default: T): T {
      match this
      case Some(v) => v
      case None => default
    }
  }

  /** `java.util.Date`: milliseconds since the epoch (`getTime()`). */
  datatype Date = Date(millis: int)

  type Nanos = n: int | 0 <= n < 1_000_000_000

  /** `java.time.Instant`: epoch seconds and a nano-of-second adjustment. */
  datatype Instant = Instant(seconds: int, nanos: Nanos)

  /** `Instant.EPOCH`. */
  const Epoch: Instant := Instant(0, 0)

  /**
   * What a `TemporalAccessor` other than `Instant` reports through
   * `isSupported`/`get` for the two fields the coercions read:
   * `None` stands for an unsupported field.
   */
  datatype Accessor = Accessor(instantSeconds: Option<int>, milliOfSecond: Option<int>)

  /**
   * A Java object as it appears in toml4j's tree and in a node's raw value:
   * strings, `Long` (and `Integer`) integers, `Double` floats (finite ones only),
   * booleans, `Date`, `Instant`, any other temporal accessor, an ordered `Map`,
   * a `List`, and `null`.
   */
  datatype Value =
    | Str(s: string)
    | Int(n: int)
    | Dbl(x: real)
    | Bool(b: bool)
    | DateV(date: Date)
    | InstantV(instant: Instant)
    | TemporalV(accessor: Accessor)
    | MapV(entries: seq<(string, Value)>)
    | ListV(items: seq<Value>)
    | Null

  /** `value instanceof Number`. */
  predicate IsNumber(v: Value) {
    v.Int? || v.Dbl?
  }

  const TwoTo31: int := 0x8000_0000
  const TwoTo32: int := 0x1_0000_0000
  const TwoTo63: int := 0x8000_0000_0000_0000

  predicate InIntRange(x: int) {
    -TwoTo31 <= x < TwoTo31
  }

  /** The two's-complement result of a 32-bit `int` operation whose exact result is `x`. */
  function Wrap32(x: int): (r: int)
    ensures InIntRange(r)
    ensures (r - x) % TwoTo32 == 0
    ensures InIntRange(x) ==> r == x
  {
    (x + TwoTo31) % TwoTo32 - TwoTo31
  }

  /** Truncation toward zero, as Java's cast from `double` to `long` does it. */
  function TruncateTowardZero(x: real): (r: int)
    ensures x >= 0.0 ==> r as real <= x < r as real + 1.0
    ensures x < 0.0 ==> r as real - 1.0 < x <= r as real
  {
    if x >= 0.0 then x.Floor else -((-x).Floor)
  }

  /** `Number.longValue()`: a long as it is, a double truncated and saturated. */
  function LongValue(v: Value): (r: int)
    requires IsNumber(v)
    ensures v.Int? ==> r == v.n
    ensures v.Dbl? ==> -TwoTo63 <= r < TwoTo63
    ensures v.Dbl? && -TwoTo63 <= TruncateTowardZero(v.x) < TwoTo63 ==> r == TruncateTowardZero(v.x)
    ensures v.Dbl? && v.x >= TwoTo63 as real ==> r == TwoTo63 - 1
    ensures v.Dbl? && v.x <= -TwoTo63 as real ==> r == -TwoTo63
  {
    match v
    case Int(n) => n
    case Dbl(x) =>
      var t := TruncateTowardZero(x);
      if t < -TwoTo63 then -TwoTo63 else if t >= TwoTo63 then TwoTo63 - 1 else t
  }

  /** A value that toml4j can hand over: `Map` keys are distinct and nothing inside a map or a list is null. */
  predicate WellFormed(v: Value) {
    match v
    case MapV(es) => DistinctKeys(es) && forall i | 0 <= i < |es| :: !es[i].1.Null? && WellFormed(es[i].1)
    case ListV(vs) => forall i | 0 <= i < |vs| :: !vs[i].Null? && WellFormed(vs[i])
    case _ => true
  }

  // Ordered maps (`LinkedHashMap`, Configurate's insertion-ordered children map) as association lists.

  predicate HasKey<V>(es: seq<(string, V)>, k: string) {
    exists i | 0 <= i < |es| :: es[i].0 == k
  }

  predicate DistinctKeys<V>(es: seq<(string, V)>) {
    forall i, j | 0 <= i < j < |es| :: es[i].0 != es[j].0
  }

  /** The position of the first entry with key `k`, or -1. */
  function IndexOf<V>(es: seq<(string, V)>, k: string): (r: int)
    ensures -1 <= r < |es|
    ensures r == -1 <==> !HasKey(es, k)
    ensures r >= 0 ==> es[r].0 == k && forall i | 0 <= i < r :: es[i].0 != k
  {
    if es == [] then -1
    else if es[0].0 == k then 0
    else
      var r := IndexOf(es[1..], k);
      assert HasKey(es[1..], k) <==> HasKey(es, k) by {
        if HasKey(es, k) { var i :| 0 <= i < |es| && es[i].0 == k; assert es[1..][i - 1].0 == k; }
      }
      if r == -1 then -1 else r + 1
  }

  /** The first position holding key `k` is determined by the keys alone. */
  lemma IndexOfAt<V>(s: seq<(string, V)>, k: string, j: int)
    requires 0 <= j < |s| && s[j].0 == k
    requires forall i | 0 <= i < j :: s[i].0 != k
    ensures IndexOf(s, k) == j
  {
    assert HasKey(s, k);
  }

  /** Two maps whose keys match `k` at the same positions find `k` at the same position. */
  lemma IndexOfSamePattern<V>(s: seq<(string, V)>, t: seq<(string, V)>, k: string)
    requires |s| == |t|
    requires forall i | 0 <= i < |s| :: (s[i].0 == k) == (t[i].0 == k)
    ensures IndexOf(s, k) == IndexOf(t, k)
  {
    var a := IndexOf(s, k);
    if a >= 0 {
      IndexOfAt(t, k, a);
    }
  }

  /** Appending an entry with another key does not move `k`. */
  lemma IndexOfAppend<V>(s: seq<(string, V)>, e: (string, V), k: string)
    requires e.0 != k
    ensures IndexOf(s + [e], k) == IndexOf(s, k)
  {
    var a := IndexOf(s, k);
    if a >= 0 {
      IndexOfAt(s + [e], k, a);
    }
  }

  /** `map.get(k)`. */
  function Lookup<V>(es: seq<(string, V)>, k: string): Option<V> {
    var i := IndexOf(es, k);
    if i < 0 then None else Some(es[i].1)
  }

  /** `map.put(k, v)`: replaces the value in place when `k` is present, otherwise appends. */
  function Put<V>(es: seq<(string, V)>, k: string, v: V): seq<(string, V)> {
    var i := IndexOf(es, k);
    if i < 0 then es + [(k, v)] else es[i := (k, v)]
  }

  lemma PutLookup<V>(es: seq<(string, V)>, k: string, v: V, k': string)
    ensures Lookup(Put(es, k, v), k') == if k' == k then Some(v) else Lookup(es, k')
  {
    var r := Put(es, k, v);
    if IndexOf(es, k) < 0 {
      if k' == k {
        IndexOfAt(r, k, |es|);
      } else {
        IndexOfAppend(es, (k, v), k');
      }
    } else {
      IndexOfSamePattern(r, es, k');
    }
  }

  lemma PutKeepsDistinct<V>(es: seq<(string, V)>, k: string, v: V)
    requires DistinctKeys(es)
    ensures DistinctKeys(Put(es, k, v))
  {
    if IndexOf(es, k) < 0 {
      var r := Put(es, k, v);
      forall a, b | 0 <= a < b < |r| ensures r[a].0 != r[b].0 {
        if b == |es| { assert es[a].0 != k; }
      }
    }
  }

  /** `map.remove(k)`. */
  function Remove<V>(es: seq<(string, V)>, k: string): seq<(string, V)> {
    if es == [] then []
    else if es[0].0 == k then Remove(es[1..], k)
    else [es[0]] + Remove(es[1..], k)
  }

  lemma {:induction false} RemoveLookup<V>(es: seq<(string, V)>, k: string, k': string)
    ensures Lookup(Remove(es, k), k') == if k' == k then None else Lookup(es, k')
  {
    if es != [] {
      RemoveLookup(es[1..], k, k');
      var rest := Remove(es[1..], k);
      if es[0].0 != k {
        assert Remove(es, k) == [es[0]] + rest;
        if es[0].0 == k' {
          IndexOfAt(Remove(es, k), k', 0);
          IndexOfAt(es, k', 0);
        } else {
          IndexOfTail([es[0]] + rest, k');
          IndexOfTail(es, k');
          assert ([es[0]] + rest)[1..] == rest;
        }
      } else if k' != k {
        IndexOfTail(es, k');
      }
    }
  }

  lemma IndexOfTail<V>(es: seq<(string, V)>, k: string)
    requires es != [] && es[0].0 != k
    ensures IndexOf(es, k) == if IndexOf(es[1..], k) < 0 then -1 else IndexOf(es[1..], k) + 1
  {
  }

  /** `remove` keeps only entries that were there, none of them under `k`. */
  lemma {:induction false} RemoveKeepsEntries<V>(es: seq<(string, V)>, k: string)
    ensures forall p | p in Remove(es, k) :: p in es && p.0 != k
  {
    if es != [] {
      RemoveKeepsEntries(es[1..], k);
    }
  }

  lemma {:induction false} RemoveKeepsDistinct<V>(es: seq<(string, V)>, k: string)
    requires DistinctKeys(es)
    ensures DistinctKeys(Remove(es, k))
  {
    if es != [] {
      RemoveKeepsDistinct(es[1..], k);
      RemoveKeepsEntries(es[1..], k);
      var rest := Remove(es[1..], k);
      if es[0].0 != k {
        var r := [es[0]] + rest;
        forall a, b | 0 <= a < b < |r| ensures r[a].0 != r[b].0 {
          if a == 0 {
            assert r[b] in es[1..];
          } else {
            assert r[a] == rest[a - 1] && r[b] == rest[b - 1];
          }
        }
      }
    }
  }

  /** `put` adds the new entry and otherwise keeps only entries that were there. */
  lemma PutEntries<V>(es: seq<(string, V)>, k: string, v: V)
    ensures forall p | p in Put(es, k, v) :: p == (k, v) || p in es
  {
    var i := IndexOf(es, k);
    if i >= 0 {
      forall p | p in es[i := (k, v)] ensures p == (k, v) || p in es {
        var j :| 0 <= j < |es| && es[i := (k, v)][j] == p;
        if j != i { assert es[j] == p; }
      }
    }
  }
}
